=== FILE: README.md ===
# A Dafny model of the request pipeline of `webroot/server.py`

`webroot/server.py` is a single-threaded HTTP/1.0 static file server. For each
connection it reads one request and validates its request line
(`validate_http_request`). It then resolves the requested resource against a
redirect table, a forbidden list and the file system
(`handle_client_request`). It answers with a 302, 403, 404 or 200 built by
`send_response` or by hand, or with a 500 for a request it does not understand
(`handle_client`). The content type comes from the file extension
(`get_content_type`).

This project models that pipeline in Dafny as pure functions and proves
properties of it:

- A connection is modelled as one decoded request string in and at most one
  byte sequence out.
- The file system is a map from canonical paths to file contents.
- The configuration (forbidden list, redirect table, default file) is a
  parameter.
- The shipped settings are one instance of it, in `ServerConfig.Server`.

Modules, in dependency order:

| file | module | what it holds |
|---|---|---|
| `wrappers.dfy` | `Wrappers` | `Option` |
| `utf8.dfy` | `Utf8` | bytes, the UTF-8 encoder applied to header text, and its inverse |
| `text.dfy` | `Text` | Python's `str.split`, `str.join`, `startswith`, `rfind`, decimal digits |
| `filesystem.dfy` | `Files` | file systems, POSIX-style canonical paths, `os.path.isfile` |
| `validator.dfy` | `Validator` | `validate_http_request` |
| `content_type.dfy` | `ContentType` | `os.path.splitext` and `get_content_type` |
| `response.dfy` | `Response` | `send_response`, the hand-built 302, and a response reader used to state round trips |
| `resolver.dfy` | `Resolver` | `handle_client_request`: normalisation, the tagged decision, the bytes written |
| `handler.dfy` | `Handler` | the decision logic of `handle_client` |
| `server_config.dfy` | `ServerConfig` | the shipped configuration and concrete requests against it |

Each response is paired with a reader, `Response.ParseResponse`. The reader
cuts the bytes at the first blank line, decodes the head as UTF-8, splits it
into lines and reads the status line and headers. The round-trip lemmas say
that a client gets back exactly the status, the headers and the body bytes
that were written.

`handle_client_request` compares the resource name with the forbidden list
exactly as given. The name is then handed to the operating system, which
resolves `.` segments and repeated `/`. So `./secret.html` passes the check
and opens `secret.html`; see "## Findings". The model keeps both versions:

- `Resolver.ResolveAsWritten`, `Resolver.HandleClientRequestAsWritten` and
  `Handler.HandleClient` are the code as written.
- `Resolver.Resolve`, `Resolver.HandleClientRequest` and
  `Handler.HandleClientCorrected` compare paths instead: a name is refused
  when it and some entry of the forbidden list resolve to the same file
  (`Resolver.ListsPath`).

The corrected check refuses every name the check as written refuses and
otherwise decides alike (`Resolver.CorrectedRefusesMore`,
`Handler.CorrectedOnlyRefusesMore`). When the list's entries are canonical,
as the shipped ones are (`ServerConfig.ServerListCanonical`), the two agree on
every canonical name (`Resolver.AgreesOnCanonicalNames`).

The validator reads only the first line of a request, everything before the
first CR LF. The lemmas about requests therefore take any request whose first
line is the one named, whatever follows it.

## Model

| member | source | states |
|---|---|---|
| Validator.ParseRequestLine | webroot/server.py:116-120 | the first line splits on `' '` into exactly three tokens iff it holds exactly two spaces, so a doubled space or a missing version is refused; the accepted tokens hold no space and rejoin with single spaces into the line |
| Validator.ValidateHttpRequest | webroot/server.py:102-137 | `valid` and `internal_error` are always opposite, so the fallback branch at 162-165 is never taken; every rejection is `(False, '', True)`; a first line without exactly two spaces is rejected |
| Validator.FirstLineOf | webroot/server.py:111-115 | the request line is everything before the first CR LF: a line holding no CR LF (a lone CR or LF is allowed), followed by nothing or by CR LF, is the first line |
| Validator.ValidateRequestLine | webroot/server.py:111-137 | for any request whose first line is three space-free tokens, whatever follows that line: accepted iff the method is exactly `GET` and the version starts with `HTTP/`; the resource is the target with one leading `/` removed if present, else the target unchanged |
| Validator.AcceptedGet | webroot/server.py:111-137 | any request whose first line is `GET <target> <version>`, with space-free target and a version starting `HTTP/`, is accepted with resource `target` minus at most one leading `/` |
| Text.JoinSplit | webroot/server.py:111 | `sep.join(s.split(sep)) == s`: splitting loses nothing |
| Text.SplitCharCount | webroot/server.py:116-117 | splitting on one character gives one more piece than the character's occurrences |
| Text.SplitCharPieces | webroot/server.py:116 | no piece of a split on a character contains that character |
| Text.SplitJoinLines | webroot/server.py:111 | lines without line feeds, joined with CR LF, split back into the same lines |
| Text.ParseNatToString | webroot/server.py:45 | the decimal `Content-Length` value reads back as the number written |
| Utf8.DecodeEncode | webroot/server.py:47 | decoding the UTF-8 encoding of any string gives the string back |
| Utf8.EncodeAppend | webroot/server.py:47 | the encoding of a concatenation is the concatenation of the encodings |
| Utf8.NoLineFeedEncoded | webroot/server.py:47 | a string without a line feed encodes to bytes without byte 10 |
| Files.KeptSegments | webroot/server.py:90 | resolution keeps exactly the real names of the path: every kept segment is a real name taken from the path, every real name of the path is kept, and nothing changes when every segment is a real name |
| Files.KeptAppend | webroot/server.py:90 | resolution works segment by segment: what survives of a concatenation is what survives of each part, in the same order |
| Files.PlainName | webroot/server.py:90 | a name without `/` that is not empty or `.` is its own `Canonical` path and names a file, so `IsFile` is a lookup of the name itself |
| Files.DotSegmentIgnored | webroot/server.py:90-96 | for a relative `p`, `./p` has the same `Canonical` path as `p` and names a file iff `p` does, so `IsFile` and the contents opened agree for both |
| Files.CanonicalIdempotent | webroot/server.py:90-96 | `Canonical` of an already resolved path changes nothing |
| ContentType.SplitExt | webroot/server.py:26 | `os.path.splitext` as the library's loop computes it: root plus extension is the path, and the extension is `ContentType.Extension`, the closed form used by `get_content_type` |
| ContentType.ExtensionShape | webroot/server.py:26 | `Extension` is a suffix of the path that is empty or starts with its only `.` and holds no `/` |
| ContentType.TypeForExtension | webroot/server.py:27-37 | the chain of tests is the table `.html`/`.txt` to `text/html; charset=utf-8`, `.jpg` to `image/jpeg`, `.js` to `text/javascript; charset=UTF-8`, `.css` to `text/css`, and `text/html; charset=utf-8` for anything else |
| ContentType.ContentTypeOf | webroot/server.py:24-37 | `get_content_type` always answers one of the four table types, and none holds a line feed, so it can be written as a header value |
| ContentType.ContentTypeCaseInsensitive | webroot/server.py:26 | upper- or lower-casing a name does not change its type |
| ContentType.ContentTypeOfSuffix | webroot/server.py:24-37 | a name ending in `.ext` after a basename character gets the table entry for the lower-cased `.ext`, or the default |
| ContentType.ExtensionOfDottedSuffix | webroot/server.py:26 | a name ending in `.ext` has extension `.ext`, and has none exactly when its basename before that dot is empty or all dots |
| ContentType.DefaultSuffixType | webroot/server.py:26-37 | a name ending in a lower-case `.ext` that the table types as `text/html` gets `text/html`, whatever precedes the suffix |
| ContentType.DotFileHasDefaultType | webroot/server.py:26-37 | a basename of leading dots and a dot-free word (such as `.js`) has no extension and gets `text/html; charset=utf-8` |
| ContentType.NoDotHasDefaultType | webroot/server.py:35-37 | a basename without a dot gets `text/html; charset=utf-8` |
| ContentType.LowerFixed | webroot/server.py:26 | lower-casing leaves a string without capitals unchanged |
| Response.SendResponse | webroot/server.py:40-48 | the body is written verbatim as the tail of the response, after a non-empty header block |
| Response.ResponseHeadFraming | webroot/server.py:42-46 | the header block is the status line, a `Content-Type` line only for a non-empty content type, the `Content-Length` line, each ended by CR LF, and a blank line |
| Response.SendResponseRoundTrip | webroot/server.py:40-48 | a client reads back the code, the message, the headers written (`Content-Type` only when non-empty, then `Content-Length`) and exactly the body bytes |
| Response.SendResponseContentLength | webroot/server.py:45 | the `Content-Length` a client reads is the body's byte count |
| Response.RedirectFraming | webroot/server.py:74-79 | `RedirectResponse`, the hand-built 302, is the framing of `HTTP/1.0 302 Found`, `Location: /<target>` and `Content-Length: 0` |
| Response.RedirectRoundTrip | webroot/server.py:74-80 | a client reads `RedirectResponse` as `302 Found` with `Location: /<target>`, `Content-Length: 0` and no body |
| Resolver.Decide | webroot/server.py:70-99 | precedence: redirect iff the name is a redirect key; forbidden iff not a redirect and the forbidden check refuses the name; not found iff neither and not a file; otherwise the file's contents are served |
| Resolver.ResponseByPrecedence | webroot/server.py:62-99 | `HandleClientRequestAsWritten` (`Normalize`, `ResolveAsWritten`, `Respond`) sends the 302 for a redirect key, else the 403 for a listed name, else the 404, else the 200 with the file and its type |
| Resolver.CorrectedResponseByPrecedence | webroot/server.py:62-99 | the same for `HandleClientRequest` and `Resolve`, with the 403 for every name resolving to a listed file |
| Resolver.RespondRoundTrip | webroot/server.py:70-99 | every decision reads back as its status, its headers and its body |
| Resolver.StatusIdentifiesDecision | webroot/server.py:70-99 | each decision has its own status code, so with `RespondRoundTrip` the code read back names the decision |
| Resolver.ResolveWritable | webroot/server.py:73-76 | with line-feed-free redirect targets, every decision can be written and read back |
| Resolver.RootIsDefaultFile | webroot/server.py:62-64 | `''` and `/` are answered as the default file is, in both pipelines |
| Resolver.NormalizeCases | webroot/server.py:62-68 | `''` and `/` become the default file; a name with a leading `/` loses exactly that one character; any other non-empty name is kept |
| Resolver.LeadingSlashIgnored | webroot/server.py:66-68 | one leading `/` on a non-root name does not change the response, as written and corrected |
| Resolver.RedirectFirst | webroot/server.py:70-81 | a redirect key gets its 302 whatever the lists and files hold, in both pipelines |
| Resolver.OnlyRequestedFileMatters | webroot/server.py:84-99 | the decision depends on the file system only through the requested file, and not at all for a redirect key or a listed name, as written and corrected |
| Resolver.NeverServesForbidden | webroot/server.py:84-99 | with the corrected check, a served name resolves to an existing file that no forbidden entry resolves to, for spellings that differ only by `.` segments and repeated `/` |
| Resolver.EntryProtectsEverySpelling | webroot/server.py:84-87 | with the corrected check, a name that resolves to the same file as some forbidden entry is never served, and is refused unless it is a redirect key, when either differs from the other only by `.` segments and repeated `/` |
| Resolver.CorrectedRefusesMore | webroot/server.py:84-87 | the corrected check refuses every name the check as written refuses, and otherwise decides the same |
| Resolver.AgreesOnCanonicalNames | webroot/server.py:84 | with forbidden entries written canonically, the corrected check and the check as written decide alike on every canonical name |
| Resolver.ForbiddenBypassAsWritten | webroot/server.py:84-99 | as written, `./<forbidden name>` is served with the forbidden file's contents; the corrected check refuses it |
| Handler.HandleClient | webroot/server.py:149-165 | `handle_client` as written: no response exactly for the empty request, otherwise one response |
| Handler.HandleClientCorrected | webroot/server.py:149-165 | the same dispatch over the corrected check: no response exactly for the empty request |
| Handler.InternalErrorRoundTrip | webroot/server.py:158 | `InternalError`, the 500, reads back as `500 Internal Server Error` with `Content-Length: 0` and no body |
| Handler.RefusedGetsInternalError | webroot/server.py:155-165 | every non-empty request the validator refuses gets the 500, as written and corrected |
| Handler.MalformedLineGetsInternalError | webroot/server.py:111-118 | a non-empty request whose first line lacks exactly two spaces gets the 500 |
| Handler.TwoTokensGetInternalError | webroot/server.py:111-118 | a request whose first line is two tokens (no version) gets the 500 |
| Handler.FourTokensGetInternalError | webroot/server.py:111-118 | a request whose first line is four tokens (a doubled space) gets the 500 |
| Handler.RefusedTokens | webroot/server.py:111-130 | a request whose first line is three space-free tokens with a method other than `GET` or a version not starting `HTTP/` gets the 500, whatever follows the first line |
| Handler.RefusedRequestLine | webroot/server.py:111-130 | the same, for a first line given as a `RequestLine` |
| Handler.ResponsesParse | webroot/server.py:140-165 | every response of `handle_client` as written reads back: as the 500 when the request was refused, else as exactly the decision made for it |
| Handler.CorrectedResponsesParse | webroot/server.py:140-165 | the same for the corrected handler |
| Handler.CorrectedOnlyRefusesMore | webroot/server.py:84-87 | the corrected handler sends what `handle_client` sends, or the 403; every request refused as written is refused corrected |
| Handler.OkOnlyForAllowedFiles | webroot/server.py:84-99 | a client that reads a 200 from the corrected handler was sent the contents of an existing file that no forbidden entry names, under spellings that differ only by `.` segments and repeated `/` |
| Handler.GetRequest | webroot/server.py:155-161 | any request whose first line is an accepted `GET` is answered by `handle_client_request` as written on the target minus one `/`, and by the corrected version in the corrected handler |
| Handler.RootTarget | webroot/server.py:62-64 | a request whose first line is `GET / <version>` asks for the empty resource |
| Handler.DoubleSlashTarget | webroot/server.py:62-68 | a request whose first line is `GET // <version>` asks for `/` |
| Handler.RootRequests | webroot/server.py:62-68 | requests whose first lines are `GET /`, `GET //` and `GET /<default>` are answered like one whose first line is `GET <default>` |
| Handler.SlashedTarget | webroot/server.py:132-134 | a request whose first line is `GET /x <version>` asks for `x` |
| Handler.DoubleSlashedTarget | webroot/server.py:132-134 | a request whose first line is `GET //x <version>` asks for `/x` |
| Handler.SlashesBeforeName | webroot/server.py:66-68 | requests whose first lines are `GET x`, `GET /x` and `GET //x` get the same response |
| ServerConfig.ServerValid | webroot/server.py:10-12 | the shipped redirect target can be written as a header value |
| ServerConfig.ForbiddenPlain | webroot/server.py:9 | the shipped forbidden names are plain file names |
| ServerConfig.ServerListCanonical | webroot/server.py:9 | each shipped forbidden name is its own canonical path |
| ServerConfig.SlashedRequest | webroot/server.py:132-134 | under the shipped settings, a request whose first line is `GET /<name> HTTP/1.1` asks for `<name>` |
| ServerConfig.PlainResource | webroot/server.py:62-68 | a plain name is looked up unchanged |
| ServerConfig.Page1Decision | webroot/server.py:10-12 | `page1.html` is answered with the 302 to `/page2.html`, whatever files exist |
| ServerConfig.Page1Redirects | webroot/server.py:70-81 | a request whose first line is `GET /page1.html HTTP/1.1` gets that 302 |
| ServerConfig.SecretDecision | webroot/server.py:9 | `secret.html` gets the 403 whatever files exist, as written and corrected |
| ServerConfig.SecretForbidden | webroot/server.py:83-87 | a request whose first line is `GET /secret.html HTTP/1.1` gets the 403 |
| ServerConfig.PlainFileDecision | webroot/server.py:89-99 | a plain name outside both lists gets the 200 with its contents when it exists, else the 404; the corrected check decides the same |
| ServerConfig.HtmlType | webroot/server.py:27-28 | every name ending in `.html`, including `.html` itself and `a..html`, gets `text/html; charset=utf-8` |
| ServerConfig.DoubleDotExtension | webroot/server.py:26 | `a..html` has extension `.html`, as `os.path.splitext` splits it into `a.` and `.html` |
| ServerConfig.StylesheetDecision | webroot/server.py:33-34 | an existing `style.css` is served as `text/css` |
| ServerConfig.StylesheetServed | webroot/server.py:33-34 | a request whose first line is `GET /style.css HTTP/1.1` gets that 200 |
| ServerConfig.DotJsDecision | webroot/server.py:26 | an existing `.js` is served as `text/html; charset=utf-8`, not as JavaScript |
| ServerConfig.DotJsServedAsHtml | webroot/server.py:31-37 | a request whose first line is `GET /.js HTTP/1.1` gets that 200 |
| ServerConfig.RootServesIndex | webroot/server.py:62-64 | a request whose first line is `GET / HTTP/1.1` is answered exactly like one whose first line is `GET /index.html HTTP/1.1` |
| ServerConfig.PostGetsInternalError | webroot/server.py:123-125 | a request whose first line is `POST /index.html HTTP/1.1` gets the 500 under any configuration |
| ServerConfig.BadVersionGetsInternalError | webroot/server.py:128-130 | a request whose first line is `GET /index.html FTP/1.0` gets the 500 |
| ServerConfig.MissingVersionGetsInternalError | webroot/server.py:116-118 | a request whose first line is `GET /index.html`, with no version, gets the 500 |
| ServerConfig.DoubledSpaceGetsInternalError | webroot/server.py:116-118 | a request whose first line is `GET  /index.html HTTP/1.1`, with a doubled space, gets the 500 |
| ServerConfig.ForbiddenServedAsWritten | webroot/server.py:84-99 | a request whose first line is `GET /./secret.html HTTP/1.1` hands `./secret.html` to `handle_client_request`; `handle_client` as written answers the 200 with the file, the corrected handler the 403 |

## Left out

- The socket is not modelled: creation, `bind`/`listen`/`accept`, the accept loop, `sendall`, `close` and the `try`/`finally` (webroot/server.py:149, 167-183). A request is a string in and the response an optional byte sequence out.
- The `recv(1024)` truncation and the `decode('utf-8', errors='replace')` at webroot/server.py:150 are not modelled. The model starts from the decoded string.
- The real file system is not modelled: no `open`/`read` errors, no permissions, and no race between `os.path.isfile` and `open` (webroot/server.py:18-21, 90, 96). It is a map from canonical paths to contents, and `get_file_data` is a lookup in it.
- Files.Canonical: resolves only `.` segments and repeated or trailing `/`. It does not model `..`, symbolic links, case-insensitive file systems, or absolute paths that lead back into the working directory (`GET ///srv/www/secret.html` asks for `/srv/www/secret.html`). The file system has no working directory, so such paths are different keys. Those decide other paths that the forbidden check lets through.
- Resolver.NeverServesForbidden, Resolver.EntryProtectsEverySpelling, Handler.OkOnlyForAllowedFiles: protect a forbidden file only against spellings that `Files.Canonical` identifies, those that differ by `.` segments and repeated `/`. A spelling through `..`, a symbolic link or an absolute path is not covered.
- ContentType.Lower: lower-cases ASCII letters only, where Python's `str.lower` covers all of Unicode. No non-ASCII character lowers to a letter of the listed extensions, so the type chosen is the same.
- ContentType.SplitExt: treats only `/` as a path separator. It does not model Windows separators or `os.altsep`.
- Response.ParseResponse: not part of the server. It is the reading side, used to state what a client recovers.
- Resolver.RespondRoundTrip, Handler.ResponsesParse, Handler.CorrectedResponsesParse, Handler.OkOnlyForAllowedFiles: assume redirect targets without line feeds (`Resolver.ValidConfig`). A configured target holding CR LF would inject header lines, and the round trip would fail.
- Handler.RootRequests: requires a default file that does not start with `/` and holds no space, as the shipped `index.html` does.
- Resolver.ListsPath: an entry of the forbidden list is compared through `Files.Canonical`, so an entry such as `dir/` names `dir`; the source has no entries of that shape.
- `print` logging and `main` (webroot/server.py:148-183) are not modelled: they write to the console only.
- `IP`, `PORT` and the listen backlog (webroot/server.py:4-5, 176) are not modelled: they only configure the socket.

## Findings

| source | as written | input that shows it | evidently intended | confidence | as-written member | corrected member |
|---|---|---|---|---|---|---|
| webroot/server.py:84 | the forbidden check compares the resource name as given, but `os.path.isfile` and `open` resolve `.` segments and repeated `/` | `GET /./secret.html HTTP/1.1` with `secret.html` present: resource `./secret.html` is not on the list and the file is served with 200 | a forbidden file is never served under a spelling that differs from its entry only by `.` segments and repeated `/` | not executed | Resolver.ForbiddenBypassAsWritten, ServerConfig.ForbiddenServedAsWritten (over Handler.HandleClient) | Resolver.NeverServesForbidden, Handler.OkOnlyForAllowedFiles (over Handler.HandleClientCorrected) |

=== FILE: content_type.dfy ===
/**
 The content type mapper (`get_content_type`): the file name is lower-cased,
 its extension is taken the way `os.path.splitext` takes it on `/`-separated
 paths, and a fixed table gives the type, with `text/html; charset=utf-8` for
 everything it does not list.
 */
module ContentType {
  import opened Text

  const TextHtml: string := "text/html; charset=utf-8"
  const ImageJpeg: string := "image/jpeg"
  const TextJavascript: string := "text/javascript; charset=UTF-8"
  const TextCss: string := "text/css"

  /** The extension table, as an independent lookup for the chain of tests. */
  const Table: map<string, string> :=
    map[".html" := TextHtml, ".txt" := TextHtml, ".jpg" := ImageJpeg,
        ".js" := TextJavascript, ".css" := TextCss]

  function LowerChar(c: char): char {
    if 'A' <= c <= 'Z' then (c as int + 32) as char else c
  }

  function UpperChar(c: char): char {
    if 'a' <= c <= 'z' then (c as int - 32) as char else c
  }

  /** Lower-cases the ASCII letters of `s`. */
  function Lower(s: string): string {
    seq(|s|, i requires 0 <= i < |s| => LowerChar(s[i]))
  }

  /** Upper-cases the ASCII letters of `s`. */
  function Upper(s: string): string {
    seq(|s|, i requires 0 <= i < |s| => UpperChar(s[i]))
  }

  /** A string without upper-case ASCII letters is its own lower-case form. */
  lemma LowerFixed(s: string)
    requires forall i :: 0 <= i < |s| ==> !('A' <= s[i] <= 'Z')
    ensures Lower(s) == s
  {
  }

  /** Every character of `p` in `[lo, hi)` is a dot. */
  predicate DotsOnly(p: string, lo: int, hi: int)
    requires 0 <= lo && hi <= |p|
  {
    forall j :: lo <= j < hi ==> p[j] == '.'
  }

  /**
   The extension `os.path.splitext` splits off: from the last `.` to the end,
   provided that dot comes after the last `/` (it lies in the basename) and
   the basename has something other than dots before it.  So a dot file such
   as `.js` has no extension.
   */
  function Extension(p: string): string {
    var s := RFind(p, '/');
    var d := RFind(p, '.');
    if d > s && !DotsOnly(p, s + 1, d) then p[d..] else []
  }

  /** An extension is a suffix of the path that starts with its only `.` and holds no `/`. */
  lemma ExtensionShape(p: string)
    ensures var e := Extension(p);
      && |e| <= |p| && p[|p| - |e|..] == e
      && (e == [] || (e[0] == '.' && '.' !in e[1..] && '/' !in e[1..]))
  {
    var s := RFind(p, '/');
    var d := RFind(p, '.');
    if d > s && !DotsOnly(p, s + 1, d) {
      var e := p[d..];
      forall i | 1 <= i < |e| ensures e[i] != '.' && e[i] != '/' {
        assert e[i] == p[d + i];
      }
    }
  }

  /**
   `os.path.splitext` as the library writes it: find the last `/` and the last
   `.`, and if the dot is in the basename, walk over the leading dots of the
   basename; the first other character before the dot makes the split.  It
   splits the path into root and the extension above.
   */
  method SplitExt(p: string) returns (root: string, ext: string)
    ensures root + ext == p
    ensures ext == Extension(p)
  {
    var sepIndex := RFind(p, '/');
    var dotIndex := RFind(p, '.');
    if dotIndex > sepIndex {
      var filenameIndex := sepIndex + 1;
      while filenameIndex < dotIndex
        invariant sepIndex + 1 <= filenameIndex <= dotIndex
        invariant DotsOnly(p, sepIndex + 1, filenameIndex)
      {
        if p[filenameIndex] != '.' {
          return p[..dotIndex], p[dotIndex..];
        }
        filenameIndex := filenameIndex + 1;
      }
    }
    return p, [];
  }

  /**
   The chain of extension tests in `get_content_type`: it agrees with the
   table, and anything outside the table gets `text/html`.
   */
  function TypeForExtension(ext: string): (r: string)
    ensures ext in Table ==> r == Table[ext]
    ensures ext !in Table ==> r == TextHtml
  {
    if ext == ".html" || ext == ".txt" then TextHtml
    else if ext == ".jpg" then ImageJpeg
    else if ext == ".js" then TextJavascript
    else if ext == ".css" then TextCss
    else TextHtml
  }

  /**
   `get_content_type`: the type for the extension of the lower-cased name.
   It is always one of the table's four types, so it fits on a header line.
   */
  function ContentTypeOf(filename: string): (r: string)
    ensures r == TextHtml || r == ImageJpeg || r == TextJavascript || r == TextCss
    ensures '\n' !in r
  {
    TypeForExtension(Extension(Lower(filename)))
  }

  /** Lower-casing and upper-casing a name does not change its type. */
  lemma ContentTypeCaseInsensitive(filename: string)
    ensures ContentTypeOf(Upper(filename)) == ContentTypeOf(filename)
    ensures ContentTypeOf(Lower(filename)) == ContentTypeOf(filename)
  {
    assert Lower(Upper(filename)) == Lower(filename);
    assert Lower(Lower(filename)) == Lower(filename);
  }

  /**
   A name ending in `.ext` has extension `.ext` when the character before the
   dot is part of the basename and is not a dot.
   */
  lemma ExtensionOfSuffix(stem: string, e: string)
    requires |stem| > 0 && stem[|stem| - 1] != '/' && stem[|stem| - 1] != '.'
    requires |e| > 0 && e[0] == '.' && '.' !in e[1..] && '/' !in e[1..]
    ensures Extension(stem + e) == e
  {
    var p := stem + e;
    forall j | |stem| < j < |p|
      ensures p[j] != '/' && p[j] != '.'
    {
      assert p[j] == e[1..][j - |stem| - 1];
    }
    assert RFind(p, '.') == |stem| by {
      assert p[|stem|] == '.';
    }
    var s := RFind(p, '/');
    assert s < |stem| - 1 by {
      assert p[|stem|] == '.';
      assert p[|stem| - 1] == stem[|stem| - 1];
    }
    assert p[|stem| - 1] != '.';
    assert p[|stem|..] == e;
  }

  /**
   Whatever comes before it, a final `.ext` is the whole extension, or no
   extension at all exactly when the basename before it is empty or all dots:
   `a..html` has extension `.html`, `d/.html` and `..html` have none.
   */
  lemma ExtensionOfDottedSuffix(stem: string, e: string)
    requires |e| > 0 && e[0] == '.' && '.' !in e[1..] && '/' !in e[1..]
    ensures Extension(stem + e) == e || Extension(stem + e) == []
    ensures Extension(stem + e) == [] <==> forall j :: RFind(stem, '/') < j < |stem| ==> stem[j] == '.'
  {
    var p := stem + e;
    assert e == ['.'] + e[1..];
    assert p == stem + ['.'] + e[1..];
    RFindLast(stem, '.', e[1..]);
    RFindAppendAbsent(stem, e, '/');
    DotsOnlyPrefix(stem, e, RFind(stem, '/') + 1);
    assert p[|stem|..] == e;
  }

  /** Characters of `stem` stay where they were when something is appended. */
  lemma DotsOnlyPrefix(stem: string, e: string, lo: int)
    requires 0 <= lo <= |stem|
    ensures DotsOnly(stem + e, lo, |stem|) <==> forall j :: lo <= j < |stem| ==> stem[j] == '.'
  {
    forall j | lo <= j < |stem| ensures (stem + e)[j] == stem[j] {
    }
  }

  /**
   A lower-case suffix `.ext` whose table type is the default gives every name
   ending in it the default type, whether or not it is the name's extension.
   */
  lemma DefaultSuffixType(p: string, e: string)
    requires |e| > 0 && e[0] == '.' && '.' !in e[1..] && '/' !in e[1..]
    requires Lower(e) == e && TypeForExtension(e) == TextHtml
    ensures ContentTypeOf(p + e) == TextHtml
  {
    assert Lower(p + e) == Lower(p) + Lower(e);
    ExtensionOfDottedSuffix(Lower(p), e);
  }

  /** Lower-casing keeps `/` and `.` where they were. */
  lemma LowerKeepsSeparators(s: string)
    ensures forall i :: 0 <= i < |s| ==> (Lower(s)[i] == '/' <==> s[i] == '/')
    ensures forall i :: 0 <= i < |s| ==> (Lower(s)[i] == '.' <==> s[i] == '.')
  {
  }

  /** Two strings with `/` and `.` at the same places have the same extension position. */
  lemma SameMarksSameExtension(a: string, b: string)
    requires |a| == |b|
    requires forall i :: 0 <= i < |a| ==> (a[i] == '/' <==> b[i] == '/')
    requires forall i :: 0 <= i < |a| ==> (a[i] == '.' <==> b[i] == '.')
    ensures |Extension(a)| == |Extension(b)|
  {
    RFindSameMarks(a, b, '/');
    RFindSameMarks(a, b, '.');
    var s := RFind(a, '/');
    var d := RFind(a, '.');
    if d > s {
      assert DotsOnly(a, s + 1, d) <==> DotsOnly(b, s + 1, d);
    }
  }

  /** Two strings with `c` at the same places have the same `rfind(c)`. */
  lemma RFindSameMarks(a: string, b: string, c: char)
    requires |a| == |b|
    requires forall i :: 0 <= i < |a| ==> (a[i] == c <==> b[i] == c)
    ensures RFind(a, c) == RFind(b, c)
  {
    var ra := RFind(a, c);
    var rb := RFind(b, c);
    if ra >= 0 {
      assert b[ra] == c;
    }
    if rb >= 0 {
      assert a[rb] == c;
    }
  }

  /**
   A name whose last dot ends a basename prefix (for example `style.CSS`) is
   typed by the table entry for that suffix, in any letter case.
   */
  lemma ContentTypeOfSuffix(stem: string, e: string)
    requires |stem| > 0 && stem[|stem| - 1] != '/' && stem[|stem| - 1] != '.'
    requires |e| > 0 && e[0] == '.' && '.' !in e[1..] && '/' !in e[1..]
    ensures ContentTypeOf(stem + e) == if Lower(e) in Table then Table[Lower(e)] else TextHtml
  {
    LowerKeepsSeparators(stem);
    LowerKeepsSeparators(e);
    assert Lower(stem + e) == Lower(stem) + Lower(e);
    var le := Lower(e);
    forall i | 1 <= i < |le| ensures le[i] != '.' && le[i] != '/' {
      assert e[i] == e[1..][i - 1];
    }
    ExtensionOfSuffix(Lower(stem), le);
  }

  /**
   A basename made of one or more dots followed by a dot-free word has no
   extension, so it gets the default type: `.js` is served as `text/html`.
   */
  lemma DotFileHasDefaultType(dir: string, dots: string, word: string)
    requires dir == [] || dir[|dir| - 1] == '/'
    requires |dots| > 0 && forall i :: 0 <= i < |dots| ==> dots[i] == '.'
    requires '.' !in word && '/' !in word
    ensures Extension(dir + dots + word) == []
    ensures ContentTypeOf(dir + dots + word) == TextHtml
  {
    var p := dir + dots + word;
    DotFileExtension(dir, dots, word);
    LowerKeepsSeparators(p);
    SameMarksSameExtension(p, Lower(p));
  }

  /** The extension part of `DotFileHasDefaultType`: leading dots do not start an extension. */
  lemma DotFileExtension(dir: string, dots: string, word: string)
    requires dir == [] || dir[|dir| - 1] == '/'
    requires |dots| > 0 && forall i :: 0 <= i < |dots| ==> dots[i] == '.'
    requires '.' !in word && '/' !in word
    ensures Extension(dir + dots + word) == []
  {
    var p := dir + dots + word;
    var n := |dir| + |dots|;
    forall j | |dir| <= j < |p|
      ensures p[j] != '/'
      ensures j >= n ==> p[j] != '.'
      ensures j < n ==> p[j] == '.'
    {
      if j < n {
        assert p[j] == dots[j - |dir|];
      } else {
        assert p[j] == word[j - n];
      }
    }
    assert RFind(p, '/') == |dir| - 1 by {
      if dir != [] {
        assert p[|dir| - 1] == '/';
      }
    }
    assert RFind(p, '.') == n - 1 by {
      assert p[n - 1] == '.';
    }
    assert DotsOnly(p, |dir|, n - 1);
  }

  /** A basename without any dot has no extension and gets the default type. */
  lemma NoDotHasDefaultType(filename: string)
    requires RFind(filename, '.') < RFind(filename, '/') || RFind(filename, '.') < 0
    ensures Extension(filename) == []
    ensures ContentTypeOf(filename) == TextHtml
  {
    LowerKeepsSeparators(filename);
    SameMarksSameExtension(filename, Lower(filename));
  }
}

=== FILE: filesystem.dfy ===
/**
 The part of the operating system's path resolution that `os.path.isfile`
 and `open(filename, 'rb')` apply to a relative resource name.  A file system
 is a map from canonical paths to contents; a path names a file when its last
 segment is a name (not empty, not `.`) and its canonical form is a key.
 Canonical form drops empty and `.` segments, as POSIX resolution does.
 */
module Files {
  import opened Text
  import opened Utf8

  /** The regular files reachable from the working directory, by canonical path. */
  type FileSystem = map<string, seq<byte>>

  /** A segment that names a directory entry rather than the current directory. */
  predicate Kept(segment: string) {
    segment != "" && segment != "."
  }

  /** The segments that survive resolution, in order. */
  function KeptSegments(segments: seq<string>): (r: seq<string>)
    ensures |r| <= |segments|
    ensures forall i :: 0 <= i < |r| ==> Kept(r[i]) && r[i] in segments
    ensures forall i :: 0 <= i < |segments| && Kept(segments[i]) ==> segments[i] in r
    ensures (forall i :: 0 <= i < |segments| ==> Kept(segments[i])) ==> r == segments
  {
    if segments == [] then []
    else if Kept(segments[0]) then [segments[0]] + KeptSegments(segments[1..])
    else KeptSegments(segments[1..])
  }

  /**
   Resolution works segment by segment: the survivors of a concatenation are
   the survivors of each part, in the same order.
   */
  lemma {:induction false} KeptAppend(a: seq<string>, b: seq<string>)
    ensures KeptSegments(a + b) == KeptSegments(a) + KeptSegments(b)
    decreases |a|
  {
    if a == [] {
      assert a + b == b;
    } else {
      assert (a + b)[0] == a[0];
      assert (a + b)[1..] == a[1..] + b;
      KeptAppend(a[1..], b);
    }
  }

  /** Segments joined by `/`; no segments make the empty path. */
  function JoinPath(segments: seq<string>): string {
    if segments == [] then "" else Join(segments, "/")
  }

  /** The path the operating system resolves `path` to: absolute stays absolute. */
  function Canonical(path: string): string {
    (if StartsWith(path, "/") then "/" else "") + JoinPath(KeptSegments(Split(path, "/")))
  }

  /**
   Only a path ending in a name can be a regular file: `""`, `a/` and `a/.`
   all name directories.
   */
  predicate NamesFile(path: string) {
    var segments := Split(path, "/");
    Kept(segments[|segments| - 1])
  }

  /** `os.path.isfile(path)`. */
  predicate IsFile(fs: FileSystem, path: string) {
    NamesFile(path) && Canonical(path) in fs
  }

  /** A name without `/` that is neither empty nor `.` is its own canonical form. */
  lemma PlainName(name: string)
    requires '/' !in name && Kept(name)
    ensures Split(name, "/") == [name]
    ensures Canonical(name) == name
    ensures NamesFile(name)
  {
    CharFreeNoMatch(name, '/', []);
    SplitNoMatch(name, "/");
    assert KeptSegments([name]) == [name];
  }

  /** A leading `./` names the same file as the rest of the path. */
  lemma DotSegmentIgnored(path: string)
    requires !StartsWith(path, "/")
    ensures Canonical("./" + path) == Canonical(path)
    ensures NamesFile("./" + path) == NamesFile(path)
  {
    DotCanonical(path);
    DotNamesFile(path);
  }

  lemma DotCanonical(path: string)
    requires !StartsWith(path, "/")
    ensures Canonical("./" + path) == Canonical(path)
  {
    DotSplit(path);
    DotDropped(Split(path, "/"));
    DotNotAbsolute(path);
  }

  lemma DotNamesFile(path: string)
    ensures NamesFile("./" + path) == NamesFile(path)
  {
    DotSplit(path);
    DotNamesFileOf(path, "./" + path);
  }

  lemma DotNamesFileOf(path: string, p: string)
    requires Split(p, "/") == ["."] + Split(path, "/")
    ensures NamesFile(p) == NamesFile(path)
  {
    LastOfDotted(Split(p, "/"), Split(path, "/"));
  }

  lemma LastOfDotted(segments: seq<string>, rest: seq<string>)
    requires |rest| >= 1 && segments == ["."] + rest
    ensures segments[|segments| - 1] == rest[|rest| - 1]
  {
  }

  lemma DotNotAbsolute(path: string)
    ensures !StartsWith("./" + path, "/")
  {
    assert ("./" + path)[0] == '.';
  }

  lemma DotDropped(rest: seq<string>)
    requires |rest| >= 1
    ensures KeptSegments(["."] + rest) == KeptSegments(rest)
    ensures (["."] + rest)[|rest|] == rest[|rest| - 1]
  {
    assert (["."] + rest)[1..] == rest;
  }

  lemma DotSplit(path: string)
    ensures Split("./" + path, "/") == ["."] + Split(path, "/")
  {
    assert "./" + path == "." + "/" + path;
    CharFreeNoMatch(".", '/', path);
    SplitFirst(".", "/", path);
  }

  /** Resolving a canonical path again changes nothing. */
  lemma CanonicalIdempotent(path: string)
    ensures Canonical(Canonical(path)) == Canonical(path)
  {
    var segments := Split(path, "/");
    var kept := KeptSegments(segments);
    var joined := JoinPath(kept);
    SplitCharPieces(path, '/');
    forall i | 0 <= i < |kept| ensures '/' !in kept[i] {
      var j :| 0 <= j < |segments| && segments[j] == kept[i];
    }
    JoinedSegments(kept);
    if StartsWith(path, "/") {
      var c := "/" + joined;
      assert c == [] + "/" + joined;
      CharFreeNoMatch([], '/', joined);
      SplitFirst([], "/", joined);
      assert Split(c, "/") == [""] + Split(joined, "/");
      assert ([""] + Split(joined, "/"))[1..] == Split(joined, "/");
      assert StartsWith(c, "/");
    } else {
      assert Canonical(path) == joined;
    }
  }

  /** Kept segments joined by `/` split back into themselves, and do not start with `/`. */
  lemma JoinedSegments(kept: seq<string>)
    requires forall i :: 0 <= i < |kept| ==> Kept(kept[i]) && '/' !in kept[i]
    ensures KeptSegments(Split(JoinPath(kept), "/")) == kept
    ensures !StartsWith(JoinPath(kept), "/")
  {
    if kept == [] {
      assert Split("", "/") == [""];
    } else {
      SplitJoinChar(kept, '/');
      JoinStartsWithFirst(kept, "/");
      assert kept[0][0] != '/';
    }
  }
}

=== FILE: handler.dfy ===
/**
 `handle_client`: one decoded request in, at most one response out.  An empty
 request gets no response; a request the validator refuses gets a 500; a valid
 one is handed to `handle_client_request`.  `HandleClient` is the code as
 written; `HandleClientCorrected` differs only in the forbidden check.
 */
module Handler {
  import opened Wrappers
  import opened Utf8
  import opened Text
  import opened Files
  import opened Validator
  import opened Response
  import opened Resolver

  /** `send_response(client_socket, "500", "Internal Server Error")`. */
  function InternalError(): seq<byte> {
    SendResponse("500", "Internal Server Error", [], None)
  }

  /** The message a client reads from the 500. */
  const InternalErrorMessage := Message("500", "Internal Server Error", ResponseHeaders(None, 0), [])

  /**
   `handle_client` after the request has been received and decoded: `None`
   means the connection is closed without a response.
   */
  function HandleClient(cfg: Config, fs: FileSystem, request: string): (r: Option<seq<byte>>)
    ensures r.None? <==> request == ""
  {
    if request == "" then None
    else
      var v := ValidateHttpRequest(request);
      if v.internalError then Some(InternalError())
      else if v.valid then Some(HandleClientRequestAsWritten(cfg, fs, v.resource))
      else Some(InternalError())
  }

  /** `handle_client` with the forbidden list compared path by path. */
  function HandleClientCorrected(cfg: Config, fs: FileSystem, request: string): (r: Option<seq<byte>>)
    ensures r.None? <==> request == ""
  {
    if request == "" then None
    else
      var v := ValidateHttpRequest(request);
      if v.internalError then Some(InternalError())
      else if v.valid then Some(HandleClientRequest(cfg, fs, v.resource))
      else Some(InternalError())
  }

  /** The 500 reads back as `500 Internal Server Error` with an empty body. */
  lemma InternalErrorRoundTrip()
    ensures ParseResponse(InternalError()) == Some(InternalErrorMessage)
  {
    SendResponseRoundTrip("500", "Internal Server Error", [], None);
  }

  /** Every request the validator refuses gets the 500, never silence. */
  lemma RefusedGetsInternalError(cfg: Config, fs: FileSystem, request: string)
    requires request != "" && !ValidateHttpRequest(request).valid
    ensures HandleClient(cfg, fs, request) == Some(InternalError())
    ensures HandleClientCorrected(cfg, fs, request) == Some(InternalError())
  {
  }

  /** A first line that does not split into exactly three tokens gets the 500. */
  lemma MalformedLineGetsInternalError(cfg: Config, fs: FileSystem, request: string)
    requires request != "" && multiset(FirstLine(request))[' '] != 2
    ensures HandleClient(cfg, fs, request) == Some(InternalError())
  {
  }

  /** A first line of two tokens (a missing version, say) gets the 500. */
  lemma TwoTokensGetInternalError(cfg: Config, fs: FileSystem, request: string, first: string, second: string)
    requires FirstLine(request) == first + " " + second
    requires ' ' !in first && ' ' !in second
    ensures HandleClient(cfg, fs, request) == Some(InternalError())
  {
    var line := first + " " + second;
    assert multiset(line) == multiset(first) + multiset(" ") + multiset(second);
    EmptyFirstLine(request);
    MalformedLineGetsInternalError(cfg, fs, request);
  }

  /** A first line of four tokens (a doubled space, say) gets the 500. */
  lemma FourTokensGetInternalError(cfg: Config, fs: FileSystem, request: string, t1: string, t2: string, t3: string, t4: string)
    requires FirstLine(request) == t1 + " " + t2 + " " + t3 + " " + t4
    requires ' ' !in t1 && ' ' !in t2 && ' ' !in t3 && ' ' !in t4
    ensures HandleClient(cfg, fs, request) == Some(InternalError())
  {
    var line := t1 + " " + t2 + " " + t3 + " " + t4;
    assert multiset(line) == multiset(t1) + multiset(" ") + multiset(t2) + multiset(" ") + multiset(t3) + multiset(" ") + multiset(t4);
    EmptyFirstLine(request);
    MalformedLineGetsInternalError(cfg, fs, request);
  }

  /** Three space-free tokens whose method is not `GET` or whose version is not `HTTP/…` get the 500. */
  lemma RefusedTokens(cfg: Config, fs: FileSystem, request: string, verb: string, target: string, version: string)
    requires FirstLine(request) == verb + " " + target + " " + version
    requires ' ' !in verb && ' ' !in target && ' ' !in version
    requires verb != "GET" || !StartsWith(version, "HTTP/")
    ensures HandleClient(cfg, fs, request) == Some(InternalError())
  {
    RefusedRequestLine(cfg, fs, request, RequestLine(verb, target, version));
  }

  /**
   A request whose first line is three space-free tokens but whose method is
   not `GET`, or whose version does not start with `HTTP/`, gets the 500.
   */
  lemma RefusedRequestLine(cfg: Config, fs: FileSystem, request: string, rl: RequestLine)
    requires rl.WellFormed() && FirstLine(request) == rl.ToString()
    requires rl.verb != "GET" || !StartsWith(rl.version, "HTTP/")
    ensures HandleClient(cfg, fs, request) == Some(InternalError())
  {
    ValidateRequestLine(request, rl);
    EmptyFirstLine(request);
  }

  /** The decision `handle_client` makes, when it answers at all. */
  function Outcome(cfg: Config, fs: FileSystem, request: string): Option<Decision> {
    var v := ValidateHttpRequest(request);
    if request == "" || !v.valid then None
    else Some(ResolveAsWritten(cfg, fs, Normalize(cfg, v.resource)))
  }

  /** The decision the corrected handler makes, when it answers at all. */
  function CorrectedOutcome(cfg: Config, fs: FileSystem, request: string): Option<Decision> {
    var v := ValidateHttpRequest(request);
    if request == "" || !v.valid then None
    else Some(Resolve(cfg, fs, Normalize(cfg, v.resource)))
  }

  /**
   Every response reads back as a well-formed message: the 500 when the
   request was refused, and otherwise exactly the decision made for it.
   */
  lemma ResponsesParse(cfg: Config, fs: FileSystem, request: string)
    requires ValidConfig(cfg) && request != ""
    ensures HandleClient(cfg, fs, request).Some?
    ensures Outcome(cfg, fs, request).None? ==> ParseResponse(HandleClient(cfg, fs, request).value) == Some(InternalErrorMessage)
    ensures Outcome(cfg, fs, request).Some?
        ==> ParseResponse(HandleClient(cfg, fs, request).value) == Some(Expected(Outcome(cfg, fs, request).value))
  {
    var v := ValidateHttpRequest(request);
    if v.valid {
      var d := ResolveAsWritten(cfg, fs, Normalize(cfg, v.resource));
      ResolveWritable(cfg, fs, Normalize(cfg, v.resource));
      RespondRoundTrip(d);
    } else {
      InternalErrorRoundTrip();
    }
  }

  /** The same for the corrected handler. */
  lemma CorrectedResponsesParse(cfg: Config, fs: FileSystem, request: string)
    requires ValidConfig(cfg) && request != ""
    ensures HandleClientCorrected(cfg, fs, request).Some?
    ensures CorrectedOutcome(cfg, fs, request).None?
        ==> ParseResponse(HandleClientCorrected(cfg, fs, request).value) == Some(InternalErrorMessage)
    ensures CorrectedOutcome(cfg, fs, request).Some?
        ==> ParseResponse(HandleClientCorrected(cfg, fs, request).value) == Some(Expected(CorrectedOutcome(cfg, fs, request).value))
  {
    var v := ValidateHttpRequest(request);
    if v.valid {
      var d := Resolve(cfg, fs, Normalize(cfg, v.resource));
      ResolveWritable(cfg, fs, Normalize(cfg, v.resource));
      RespondRoundTrip(d);
    } else {
      InternalErrorRoundTrip();
    }
  }

  /**
   The corrected handler answers every request as the code as written does,
   except that it may answer 403 where the code as written does not; every
   name the code as written refuses, it refuses too.
   */
  lemma CorrectedOnlyRefusesMore(cfg: Config, fs: FileSystem, request: string)
    ensures || HandleClientCorrected(cfg, fs, request) == HandleClient(cfg, fs, request)
            || HandleClientCorrected(cfg, fs, request) == Some(SendResponse("403", "Forbidden", [], None))
    ensures || CorrectedOutcome(cfg, fs, request) == Outcome(cfg, fs, request)
            || CorrectedOutcome(cfg, fs, request) == Some(Forbidden)
    ensures Outcome(cfg, fs, request) == Some(Forbidden) ==> CorrectedOutcome(cfg, fs, request) == Some(Forbidden)
  {
    var v := ValidateHttpRequest(request);
    if request != "" && v.valid {
      CorrectedRefusesMore(cfg, fs, Normalize(cfg, v.resource));
    }
  }

  /**
   A client that reads a `200` from the corrected handler has been sent the
   contents of a file that exists and that no entry of the forbidden list
   names, however the entry or the request spells it.
   */
  lemma OkOnlyForAllowedFiles(cfg: Config, fs: FileSystem, request: string)
    requires ValidConfig(cfg) && request != ""
    requires ParseResponse(HandleClientCorrected(cfg, fs, request).value).Some?
    requires ParseResponse(HandleClientCorrected(cfg, fs, request).value).value.code == "200"
    ensures exists k :: && k in fs && k !in cfg.forbidden
                        && (forall f :: f in cfg.forbidden ==> Canonical(f) != k)
                        && ParseResponse(HandleClientCorrected(cfg, fs, request).value).value.body == fs[k]
  {
    CorrectedResponsesParse(cfg, fs, request);
    var m := ParseResponse(HandleClientCorrected(cfg, fs, request).value).value;
    assert CorrectedOutcome(cfg, fs, request).Some?;
    var d := CorrectedOutcome(cfg, fs, request).value;
    StatusIdentifiesDecision(d);
    var v := ValidateHttpRequest(request);
    var name := Normalize(cfg, v.resource);
    NeverServesForbidden(cfg, fs, name);
    assert m.body == fs[Canonical(name)];
  }

  /** A `GET` with an `HTTP/` version is answered from its target with one `/` removed. */
  lemma GetRequest(cfg: Config, fs: FileSystem, request: string, target: string, resource: string, version: string)
    requires FirstLine(request) == "GET " + target + " " + version && resource == StripLeadingSlash(target)
    requires ' ' !in target && ' ' !in version && StartsWith(version, "HTTP/")
    ensures HandleClient(cfg, fs, request) == Some(HandleClientRequestAsWritten(cfg, fs, resource))
    ensures HandleClientCorrected(cfg, fs, request) == Some(HandleClientRequest(cfg, fs, resource))
  {
    AcceptedGet(request, target, resource, version);
    EmptyFirstLine(request);
  }

  /** `GET / …` asks for the empty resource. */
  lemma RootTarget(cfg: Config, fs: FileSystem, request: string, version: string)
    requires FirstLine(request) == "GET / " + version && ' ' !in version && StartsWith(version, "HTTP/")
    ensures HandleClient(cfg, fs, request) == Some(HandleClientRequestAsWritten(cfg, fs, ""))
  {
    assert "GET / " + version == "GET " + "/" + " " + version;
    assert StripLeadingSlash("/") == "";
    GetRequest(cfg, fs, request, "/", "", version);
  }

  /** `GET // …` asks for `/`. */
  lemma DoubleSlashTarget(cfg: Config, fs: FileSystem, request: string, version: string)
    requires FirstLine(request) == "GET // " + version && ' ' !in version && StartsWith(version, "HTTP/")
    ensures HandleClient(cfg, fs, request) == Some(HandleClientRequestAsWritten(cfg, fs, "/"))
  {
    assert "GET // " + version == "GET " + "//" + " " + version;
    assert StripLeadingSlash("//") == "/";
    GetRequest(cfg, fs, request, "//", "/", version);
  }

  /** `GET / …`, `GET // …`, `GET /<default> …` and `GET <default> …` get the same response. */
  lemma RootRequests(cfg: Config, fs: FileSystem, root: string, doubled: string, slashed: string, plain: string, version: string)
    requires ' ' !in version && StartsWith(version, "HTTP/")
    requires ' ' !in cfg.defaultFile && !StartsWith(cfg.defaultFile, "/")
    requires FirstLine(root) == "GET / " + version && FirstLine(doubled) == "GET // " + version
    requires FirstLine(slashed) == "GET /" + cfg.defaultFile + " " + version
    requires FirstLine(plain) == "GET " + cfg.defaultFile + " " + version
    ensures HandleClient(cfg, fs, root) == HandleClient(cfg, fs, plain)
    ensures HandleClient(cfg, fs, doubled) == HandleClient(cfg, fs, plain)
    ensures HandleClient(cfg, fs, slashed) == HandleClient(cfg, fs, plain)
  {
    var d := cfg.defaultFile;
    RootTarget(cfg, fs, root, version);
    DoubleSlashTarget(cfg, fs, doubled, version);
    assert StripLeadingSlash(d) == d;
    GetRequest(cfg, fs, plain, d, d, version);
    SlashedTarget(cfg, fs, slashed, d, version);
    RootIsDefaultFile(cfg, fs);
  }

  /** `GET /x …` asks for `x`. */
  lemma SlashedTarget(cfg: Config, fs: FileSystem, request: string, name: string, version: string)
    requires FirstLine(request) == "GET /" + name + " " + version
    requires ' ' !in name && ' ' !in version && StartsWith(version, "HTTP/")
    ensures HandleClient(cfg, fs, request) == Some(HandleClientRequestAsWritten(cfg, fs, name))
  {
    assert "GET /" + name + " " + version == "GET " + ("/" + name) + " " + version;
    assert StripLeadingSlash("/" + name) == name;
    GetRequest(cfg, fs, request, "/" + name, name, version);
  }

  /** `GET //x …` asks for `/x`. */
  lemma DoubleSlashedTarget(cfg: Config, fs: FileSystem, request: string, name: string, version: string)
    requires FirstLine(request) == "GET //" + name + " " + version
    requires ' ' !in name && ' ' !in version && StartsWith(version, "HTTP/")
    ensures HandleClient(cfg, fs, request) == Some(HandleClientRequestAsWritten(cfg, fs, "/" + name))
  {
    assert "GET //" + name + " " + version == "GET " + ("//" + name) + " " + version;
    assert StripLeadingSlash("//" + name) == "/" + name;
    GetRequest(cfg, fs, request, "//" + name, "/" + name, version);
  }

  /** `GET x`, `GET /x` and `GET //x` are the same request for a name `x` not starting with `/`. */
  lemma SlashesBeforeName(cfg: Config, fs: FileSystem, plain: string, slashed: string, doubled: string, name: string, version: string)
    requires name != "" && !StartsWith(name, "/") && ' ' !in name
    requires ' ' !in version && StartsWith(version, "HTTP/")
    requires FirstLine(plain) == "GET " + name + " " + version
    requires FirstLine(slashed) == "GET /" + name + " " + version
    requires FirstLine(doubled) == "GET //" + name + " " + version
    ensures HandleClient(cfg, fs, slashed) == HandleClient(cfg, fs, plain)
    ensures HandleClient(cfg, fs, doubled) == HandleClient(cfg, fs, plain)
  {
    SlashedTarget(cfg, fs, slashed, name, version);
    DoubleSlashedTarget(cfg, fs, doubled, name, version);
    assert StripLeadingSlash(name) == name;
    GetRequest(cfg, fs, plain, name, name, version);
    LeadingSlashIgnored(cfg, fs, name);
  }
}

=== FILE: resolver.dfy ===
/**
 `handle_client_request`: the resource name is normalised (the root becomes
 the default file, one leading `/` is removed), then looked up against the
 redirect table, the forbidden list and the file system, in that order, and the
 decision is written as a 302, 403, 404 or 200 response.
 */
module Resolver {
  import opened Wrappers
  import opened Utf8
  import opened Text
  import opened Files
  import opened ContentType
  import opened Response
  import opened Validator

  /** The module-level settings: forbidden names, redirect table, default file. */
  datatype Config = Config(forbidden: seq<string>, redirects: map<string, string>, defaultFile: string)

  /** Redirect targets end up in a header line, so none may hold a line feed. */
  predicate ValidConfig(cfg: Config) {
    forall k :: k in cfg.redirects ==> '\n' !in cfg.redirects[k]
  }

  /** What `handle_client_request` decides to send. */
  datatype Decision =
    | Redirect(location: string)
    | Forbidden
    | NotFound
    | Serve(content: seq<byte>, contentType: string)

  /** The root (`''` or `/`) is the default file; then at most one leading `/` goes. */
  function Normalize(cfg: Config, resource: string): string {
    var named := if resource == "" || resource == "/" then cfg.defaultFile else resource;
    StripLeadingSlash(named)
  }

  /**
   The chain of checks, given whether the forbidden list refuses the name:
   redirect first, then forbidden, then existence, then the file itself.
   */
  function Decide(cfg: Config, fs: FileSystem, name: string, refused: bool): (d: Decision)
    ensures d.Redirect? <==> name in cfg.redirects
    ensures d.Redirect? ==> d.location == cfg.redirects[name]
    ensures d.Forbidden? <==> name !in cfg.redirects && refused
    ensures d.Serve? ==> !refused && IsFile(fs, name) && d.content == fs[Canonical(name)]
    ensures d.NotFound? <==> name !in cfg.redirects && !refused && !IsFile(fs, name)
  {
    if name in cfg.redirects then Redirect(cfg.redirects[name])
    else if refused then Forbidden
    else if !IsFile(fs, name) then NotFound
    else Serve(fs[Canonical(name)], ContentTypeOf(name))
  }

  /** The checks as written: the name as given is looked for in the forbidden list. */
  function ResolveAsWritten(cfg: Config, fs: FileSystem, name: string): Decision {
    Decide(cfg, fs, name, name in cfg.forbidden)
  }

  /** Whether some entry of the list names the same file as `name`. */
  predicate ListsPath(list: seq<string>, name: string) {
    exists f :: f in list && Canonical(f) == Canonical(name)
  }

  /**
   The checks with the forbidden list compared path by path: the name is
   refused when it and some entry resolve to the same file.
   */
  function Resolve(cfg: Config, fs: FileSystem, name: string): Decision {
    Decide(cfg, fs, name, ListsPath(cfg.forbidden, name))
  }

  /** The bytes written for a decision. */
  function Respond(d: Decision): seq<byte> {
    match d
    case Redirect(location) => RedirectResponse(location)
    case Forbidden => SendResponse("403", "Forbidden", [], None)
    case NotFound => SendResponse("404", "Not Found", [], None)
    case Serve(content, contentType) => SendResponse("200", "OK", content, Some(contentType))
  }

  /** `handle_client_request` with the forbidden check applied to the resolved file. */
  function HandleClientRequest(cfg: Config, fs: FileSystem, resource: string): seq<byte> {
    Respond(Resolve(cfg, fs, Normalize(cfg, resource)))
  }

  /** `handle_client_request` exactly as written. */
  function HandleClientRequestAsWritten(cfg: Config, fs: FileSystem, resource: string): seq<byte> {
    Respond(ResolveAsWritten(cfg, fs, Normalize(cfg, resource)))
  }

  /** The message a client reads for each decision. */
  function Expected(d: Decision): Message {
    match d
    case Redirect(location) => Message("302", "Found", RedirectHeaders(location), [])
    case Forbidden => Message("403", "Forbidden", ResponseHeaders(None, 0), [])
    case NotFound => Message("404", "Not Found", ResponseHeaders(None, 0), [])
    case Serve(content, contentType) => Message("200", "OK", ResponseHeaders(Some(contentType), |content|), content)
  }

  /** A decision whose header values can be written on one line each. */
  predicate Writable(d: Decision) {
    && (d.Redirect? ==> '\n' !in d.location)
    && (d.Serve? ==> '\n' !in d.contentType)
  }

  /** Every decision reads back as its status, its headers and its body. */
  lemma RespondRoundTrip(d: Decision)
    requires Writable(d)
    ensures ParseResponse(Respond(d)) == Some(Expected(d))
  {
    match d
    case Redirect(location) =>
      RedirectRoundTrip(location);
    case Forbidden =>
      SendResponseRoundTrip("403", "Forbidden", [], None);
    case NotFound =>
      SendResponseRoundTrip("404", "Not Found", [], None);
    case Serve(content, contentType) =>
      SendResponseRoundTrip("200", "OK", content, Some(contentType));
  }

  /** The status code a client reads identifies the decision. */
  lemma StatusIdentifiesDecision(d: Decision)
    ensures Expected(d).code == "302" <==> d.Redirect?
    ensures Expected(d).code == "403" <==> d.Forbidden?
    ensures Expected(d).code == "404" <==> d.NotFound?
    ensures Expected(d).code == "200" <==> d.Serve?
  {
  }

  /** Under a valid configuration every decision can be written and read back. */
  lemma ResolveWritable(cfg: Config, fs: FileSystem, name: string)
    requires ValidConfig(cfg)
    ensures Writable(Resolve(cfg, fs, name))
    ensures Writable(ResolveAsWritten(cfg, fs, name))
  {
  }

  /**
   The bytes `handle_client_request` writes, by precedence: the 302 for a
   redirect key whatever else holds, then the empty 403 for a name on the
   forbidden list whether or not the file exists, then the empty 404, then the
   200 with the file's contents and its content type.
   */
  lemma ResponseByPrecedence(cfg: Config, fs: FileSystem, resource: string)
    ensures var n := Normalize(cfg, resource);
      var r := HandleClientRequestAsWritten(cfg, fs, resource);
      && (n in cfg.redirects ==> r == RedirectResponse(cfg.redirects[n]))
      && (n !in cfg.redirects && n in cfg.forbidden ==> r == SendResponse("403", "Forbidden", [], None))
      && (n !in cfg.redirects && n !in cfg.forbidden && !IsFile(fs, n)
          ==> r == SendResponse("404", "Not Found", [], None))
      && (n !in cfg.redirects && n !in cfg.forbidden && IsFile(fs, n)
          ==> r == SendResponse("200", "OK", fs[Canonical(n)], Some(ContentTypeOf(n))))
  {
  }

  /**
   The same precedence with the corrected check, where a name is refused when
   it resolves to the same file as some entry of the forbidden list.
   */
  lemma CorrectedResponseByPrecedence(cfg: Config, fs: FileSystem, resource: string)
    ensures var n := Normalize(cfg, resource);
      var r := HandleClientRequest(cfg, fs, resource);
      var refused := exists f :: f in cfg.forbidden && Canonical(f) == Canonical(n);
      && (n in cfg.redirects ==> r == RedirectResponse(cfg.redirects[n]))
      && (n !in cfg.redirects && refused ==> r == SendResponse("403", "Forbidden", [], None))
      && (n !in cfg.redirects && !refused && !IsFile(fs, n)
          ==> r == SendResponse("404", "Not Found", [], None))
      && (n !in cfg.redirects && !refused && IsFile(fs, n)
          ==> r == SendResponse("200", "OK", fs[Canonical(n)], Some(ContentTypeOf(n))))
  {
  }

  /**
   What `Normalize` does to a name: the root becomes the default file with one
   leading `/` removed, a name with a leading `/` loses exactly that character,
   and any other name is kept.
   */
  lemma NormalizeCases(cfg: Config, resource: string)
    ensures resource == "" || resource == "/" ==> Normalize(cfg, resource) == Normalize(cfg, cfg.defaultFile)
    ensures resource != "/" && StartsWith(resource, "/") ==> "/" + Normalize(cfg, resource) == resource
    ensures resource != "" && !StartsWith(resource, "/") ==> Normalize(cfg, resource) == resource
  {
    if resource != "/" && StartsWith(resource, "/") {
      assert resource == resource[..1] + resource[1..];
    }
  }

  /** `''`, `/` and the default file's own name are the same request. */
  lemma RootIsDefaultFile(cfg: Config, fs: FileSystem)
    ensures HandleClientRequestAsWritten(cfg, fs, "") == HandleClientRequestAsWritten(cfg, fs, cfg.defaultFile)
    ensures HandleClientRequestAsWritten(cfg, fs, "/") == HandleClientRequestAsWritten(cfg, fs, cfg.defaultFile)
    ensures HandleClientRequest(cfg, fs, "") == HandleClientRequest(cfg, fs, cfg.defaultFile)
    ensures HandleClientRequest(cfg, fs, "/") == HandleClientRequest(cfg, fs, cfg.defaultFile)
  {
    assert Normalize(cfg, "") == Normalize(cfg, cfg.defaultFile);
    assert Normalize(cfg, "/") == Normalize(cfg, cfg.defaultFile);
  }

  /** One leading `/` on a non-root name does not change the response. */
  lemma LeadingSlashIgnored(cfg: Config, fs: FileSystem, name: string)
    requires name != "" && !StartsWith(name, "/")
    ensures HandleClientRequestAsWritten(cfg, fs, "/" + name) == HandleClientRequestAsWritten(cfg, fs, name)
    ensures HandleClientRequest(cfg, fs, "/" + name) == HandleClientRequest(cfg, fs, name)
  {
    var s := "/" + name;
    assert StartsWith(s, "/") && s[1..] == name;
    assert s != "/" by {
      assert |s| == |name| + 1;
    }
  }

  /** A redirected name is redirected whatever the forbidden list and the files say. */
  lemma RedirectFirst(cfg: Config, fs: FileSystem, name: string, forbidden: seq<string>)
    requires name in cfg.redirects
    ensures ResolveAsWritten(cfg, fs, name) == ResolveAsWritten(cfg.(forbidden := forbidden), map[], name)
    ensures ResolveAsWritten(cfg, fs, name) == Redirect(cfg.redirects[name])
    ensures Resolve(cfg, fs, name) == Redirect(cfg.redirects[name])
  {
  }

  /**
   Only the requested file is consulted: two file systems that agree on it
   give the same decision, and a redirected or forbidden name gives the same
   decision on any file system.
   */
  lemma OnlyRequestedFileMatters(cfg: Config, fs1: FileSystem, fs2: FileSystem, name: string)
    requires var c := Canonical(name);
      || name in cfg.redirects
      || name in cfg.forbidden
      || ((c in fs1 <==> c in fs2) && (c in fs1 ==> fs1[c] == fs2[c]))
    ensures ResolveAsWritten(cfg, fs1, name) == ResolveAsWritten(cfg, fs2, name)
    ensures Resolve(cfg, fs1, name) == Resolve(cfg, fs2, name)
  {
    if name in cfg.forbidden {
      assert ListsPath(cfg.forbidden, name);
    }
  }

  /**
   `Resolve` serves only a file that exists and that no entry of the forbidden
   list names, however either is spelt.
   */
  lemma NeverServesForbidden(cfg: Config, fs: FileSystem, name: string)
    ensures Resolve(cfg, fs, name).Serve? ==> Canonical(name) in fs
    ensures Resolve(cfg, fs, name).Serve? ==> forall f :: f in cfg.forbidden ==> Canonical(f) != Canonical(name)
    ensures Resolve(cfg, fs, name).Serve? ==> Canonical(name) !in cfg.forbidden
  {
    if Resolve(cfg, fs, name).Serve? && Canonical(name) in cfg.forbidden {
      CanonicalIdempotent(name);
      assert ListsPath(cfg.forbidden, name);
    }
  }

  /**
   With the corrected check a forbidden entry protects its file under every
   spelling: no name that resolves to the same file as the entry is served,
   whether the entry or the name is the canonical one.
   */
  lemma EntryProtectsEverySpelling(cfg: Config, fs: FileSystem, entry: string, name: string)
    requires entry in cfg.forbidden && Canonical(entry) == Canonical(name)
    ensures !Resolve(cfg, fs, name).Serve?
    ensures name !in cfg.redirects ==> Resolve(cfg, fs, name) == Forbidden
  {
    assert ListsPath(cfg.forbidden, name);
  }

  /** The corrected check refuses every name the check as written refuses, and maybe more. */
  lemma CorrectedRefusesMore(cfg: Config, fs: FileSystem, name: string)
    ensures ResolveAsWritten(cfg, fs, name).Forbidden? ==> Resolve(cfg, fs, name).Forbidden?
    ensures !Resolve(cfg, fs, name).Forbidden? ==> Resolve(cfg, fs, name) == ResolveAsWritten(cfg, fs, name)
  {
    if name in cfg.forbidden {
      assert ListsPath(cfg.forbidden, name);
    }
  }

  /** A list whose entries are written as the files they name. */
  predicate CanonicalList(list: seq<string>) {
    forall f :: f in list ==> Canonical(f) == f
  }

  /** With such a list, the two checks agree on every name that is itself canonical. */
  lemma AgreesOnCanonicalNames(cfg: Config, fs: FileSystem, name: string)
    requires CanonicalList(cfg.forbidden) && Canonical(name) == name
    ensures Resolve(cfg, fs, name) == ResolveAsWritten(cfg, fs, name)
  {
    if name in cfg.forbidden {
      assert ListsPath(cfg.forbidden, name);
    }
  }

  /**
   As written, prefixing a forbidden plain file name with `./` gets past the
   forbidden list and serves the file, where the corrected check refuses it.
   */
  lemma ForbiddenBypassAsWritten(cfg: Config, fs: FileSystem, name: string)
    requires '/' !in name && Kept(name)
    requires name in cfg.forbidden && name in fs
    requires "./" + name !in cfg.redirects && "./" + name !in cfg.forbidden
    ensures ResolveAsWritten(cfg, fs, "./" + name) == Serve(fs[name], ContentTypeOf("./" + name))
    ensures Resolve(cfg, fs, "./" + name) == Forbidden
  {
    PlainName(name);
    DotSegmentIgnored(name);
    assert !StartsWith(name, "/") by {
      assert name[0] != '/';
    }
    assert ListsPath(cfg.forbidden, "./" + name) by {
      assert name in cfg.forbidden && Canonical(name) == Canonical("./" + name);
    }
  }
}

=== FILE: response.dfy ===
/**
 Response framing: `send_response` and the hand-built 302 of
 `handle_client_request`.  Both write a UTF-8 header block (status line, header
 lines, blank line) followed by the raw body.  `ParseResponse` is the reading
 side a client applies: cut at the first blank line, decode the head, split it
 into lines.  The round-trip lemmas say the client gets back the status, the
 headers and the body bytes exactly.
 */
module Response {
  import opened Wrappers
  import opened Utf8
  import opened Text

  const BlankLine: seq<byte> := [CR, LF, CR, LF]

  /**
   The header block `send_response` builds: status line `HTTP/1.0 <code>
   <message>`, a `Content-Type` line only for a non-empty content type
   (Python's truthiness of `None` and `''`), `Content-Length` with the body's
   byte count, and the blank line.
   */
  function ResponseHead(code: string, message: string, contentType: Option<string>, length: nat): string {
    var status := "HTTP/1.0 " + code + " " + message + "\r\n";
    var typed := if contentType.Some? && contentType.value != "" then status + "Content-Type: " + contentType.value + "\r\n" else status;
    var sized := typed + "Content-Length: " + NatToString(length) + "\r\n";
    sized + "\r\n"
  }

  /** `send_response`: the UTF-8 header block followed by the body; the body is always the tail. */
  function SendResponse(code: string, message: string, body: seq<byte>, contentType: Option<string>): (r: seq<byte>)
    ensures |r| > |body| && r[|r| - |body|..] == body
  {
    Encode(ResponseHead(code, message, contentType, |body|)) + body
  }

  /** The 302 written by hand in `handle_client_request`: no body, `Location: /<target>`. */
  function RedirectResponse(location: string): seq<byte> {
    Encode("HTTP/1.0 302 Found\r\n" + "Location: /" + location + "\r\n" + "Content-Length: 0\r\n" + "\r\n")
  }

  /** Header lines, each ended by CR LF, then the blank line. */
  function HeadText(lines: seq<string>): string {
    if lines == [] then CRLF else lines[0] + CRLF + HeadText(lines[1..])
  }

  datatype Header = Header(name: string, value: string) {
    function Line(): string {
      name + ": " + value
    }
  }

  function HeaderLines(headers: seq<Header>): seq<string> {
    seq(|headers|, i requires 0 <= i < |headers| => headers[i].Line())
  }

  /** The lines `send_response` writes before the blank line. */
  function ResponseLines(code: string, message: string, contentType: Option<string>, length: nat): seq<string> {
    ["HTTP/1.0 " + code + " " + message] + HeaderLines(ResponseHeaders(contentType, length))
  }

  /** What a client reads from a response. */
  datatype Message = Message(code: string, reason: string, headers: seq<Header>, body: seq<byte>)

  /** The headers `send_response` writes, as a client reads them. */
  function ResponseHeaders(contentType: Option<string>, length: nat): seq<Header> {
    (if contentType.Some? && contentType.value != "" then [Header("Content-Type", contentType.value)] else [])
    + [Header("Content-Length", NatToString(length))]
  }

  function PrependHead(x: seq<byte>, o: Option<(seq<byte>, seq<byte>)>): Option<(seq<byte>, seq<byte>)> {
    match o
    case None => None
    case Some((head, rest)) => Some((x + head, rest))
  }

  /** Cuts `b` at its first CR LF CR LF into the head before it and the body after it. */
  function SplitAtBlankLine(b: seq<byte>): (r: Option<(seq<byte>, seq<byte>)>)
    ensures r.Some? ==> b == r.value.0 + BlankLine + r.value.1
    decreases |b|
  {
    if |b| < 4 then None
    else if b[..4] == BlankLine then Some(([], b[4..]))
    else PrependHead([b[0]], SplitAtBlankLine(b[1..]))
  }

  /** `HTTP/1.0 <code> <reason>`: the code runs to the first space. */
  function ParseStatusLine(line: string): Option<(string, string)> {
    if !StartsWith(line, "HTTP/1.0 ") then None
    else
      var rest := line[9..];
      var k := Find(rest, ' ');
      if k < 0 then None else Some((rest[..k], rest[k + 1..]))
  }

  /** `<name>: <value>`: the name runs to the first colon. */
  function ParseHeader(line: string): Option<Header> {
    var k := Find(line, ':');
    if k < 0 || !StartsWith(line[k + 1..], " ") then None
    else Some(Header(line[..k], line[k + 2..]))
  }

  function ParseHeaders(lines: seq<string>): Option<seq<Header>> {
    if lines == [] then Some([])
    else
      match ParseHeader(lines[0])
      case None => None
      case Some(h) =>
        match ParseHeaders(lines[1..])
        case None => None
        case Some(hs) => Some([h] + hs)
  }

  function ParseLines(lines: seq<string>, body: seq<byte>): Option<Message>
    requires |lines| >= 1
  {
    match ParseStatusLine(lines[0])
    case None => None
    case Some((code, reason)) =>
      match ParseHeaders(lines[1..])
      case None => None
      case Some(headers) => Some(Message(code, reason, headers, body))
  }

  /** Reads a response: head up to the first blank line, UTF-8 decoded, split into lines. */
  function ParseResponse(b: seq<byte>): Option<Message> {
    match SplitAtBlankLine(b)
    case None => None
    case Some((head, body)) =>
      match Decode(head)
      case None => None
      case Some(text) => ParseLines(Split(text, CRLF), body)
  }

  /** The value of the first header with the given name. */
  function HeaderValue(headers: seq<Header>, name: string): Option<string> {
    if headers == [] then None
    else if headers[0].name == name then Some(headers[0].value)
    else HeaderValue(headers[1..], name)
  }

  /** The number a client reads from `Content-Length`. */
  function ContentLength(m: Message): Option<nat> {
    match HeaderValue(m.headers, "Content-Length")
    case None => None
    case Some(v) => ParseNat(v)
  }

  lemma PrependHeadTwice(x: seq<byte>, y: seq<byte>, o: Option<(seq<byte>, seq<byte>)>)
    ensures PrependHead(x, PrependHead(y, o)) == PrependHead(x + y, o)
  {
    if o.Some? {
      assert x + (y + o.value.0) == (x + y) + o.value.0;
    }
  }

  /** A CR LF that does not begin a blank line is skipped over by the search. */
  lemma {:induction false} BlankLineAfterLine(a: seq<byte>, b: seq<byte>)
    requires LF !in a && !StartsWithCrlf(b)
    ensures SplitAtBlankLine(a + [CR, LF] + b) == PrependHead(a + [CR, LF], SplitAtBlankLine(b))
    decreases |a|
  {
    var s := a + [CR, LF] + b;
    if |s| < 4 {
      assert |b| < 2;
    } else if a == [] {
      assert s == [CR, LF] + b;
      assert s[..4] != BlankLine by { assert s[2] == b[0] && s[3] == b[1]; }
      var t := s[1..];
      assert s[0] == CR;
      assert t == [LF] + b;
      assert SplitAtBlankLine(s) == PrependHead([CR], SplitAtBlankLine(t));
      if |t| >= 4 {
        assert t[0] == LF;
        assert t[..4] != BlankLine;
        assert t[1..] == b;
        assert SplitAtBlankLine(t) == PrependHead([LF], SplitAtBlankLine(b));
        PrependHeadTwice([CR], [LF], SplitAtBlankLine(b));
        assert a + [CR, LF] == [CR] + [LF];
      }
    } else {
      assert s[1] != LF by {
        if |a| >= 2 { assert s[1] == a[1]; } else { assert s[1] == CR; }
      }
      assert s[..4] != BlankLine;
      assert s[1..] == a[1..] + [CR, LF] + b;
      BlankLineAfterLine(a[1..], b);
      PrependHeadTwice([a[0]], a[1..] + [CR, LF], SplitAtBlankLine(b));
      assert [a[0]] + (a[1..] + [CR, LF]) == a + [CR, LF];
    }
  }

  /** The first blank line is found right after a line-feed-free head. */
  lemma {:induction false} BlankLineHere(a: seq<byte>, b: seq<byte>)
    requires LF !in a
    ensures SplitAtBlankLine(a + BlankLine + b) == Some((a, b))
    decreases |a|
  {
    var s := a + BlankLine + b;
    if a == [] {
      assert s[..4] == BlankLine;
      assert s[4..] == b;
    } else {
      assert s[1] != LF by {
        if |a| >= 2 { assert s[1] == a[1]; } else { assert s[1] == CR; }
      }
      assert s[..4] != BlankLine;
      assert s[1..] == a[1..] + BlankLine + b;
      BlankLineHere(a[1..], b);
      assert [a[0]] + a[1..] == a;
    }
  }

  lemma EncodeCrlf()
    ensures Encode(CRLF) == [CR, LF]
  {
    assert CRLF[1..] == "\n";
    assert Encode("\n") == EncodeChar('\n') + Encode([]);
  }

  predicate FramableLines(lines: seq<string>) {
    forall i :: 0 <= i < |lines| ==> lines[i] != [] && '\n' !in lines[i]
  }

  /** The head of a framed response ends at its blank line, not earlier. */
  lemma {:induction false} SplitFramed(lines: seq<string>, body: seq<byte>)
    requires |lines| >= 1 && FramableLines(lines)
    ensures SplitAtBlankLine(Encode(HeadText(lines)) + body) == Some((Encode(Join(lines, CRLF)), body))
    decreases |lines|
  {
    if |lines| == 1 {
      SplitFramedLast(lines[0], body);
      assert lines == [lines[0]];
    } else {
      SplitFramed(lines[1..], body);
      SplitFramedStep(lines, body);
    }
  }

  lemma SplitFramedLast(line: string, body: seq<byte>)
    requires '\n' !in line
    ensures SplitAtBlankLine(Encode(HeadText([line])) + body) == Some((Encode(line), body))
  {
    NoLineFeedEncoded(line);
    assert [line][1..] == [];
    assert HeadText([line]) == line + (CRLF + CRLF);
    EncodeAppend(line, CRLF + CRLF);
    EncodeAppend(CRLF, CRLF);
    EncodeCrlf();
    assert Encode(HeadText([line])) + body == Encode(line) + BlankLine + body;
    BlankLineHere(Encode(line), body);
  }

  lemma SplitFramedStep(lines: seq<string>, body: seq<byte>)
    requires |lines| >= 2 && FramableLines(lines)
    requires SplitAtBlankLine(Encode(HeadText(lines[1..])) + body) == Some((Encode(Join(lines[1..], CRLF)), body))
    ensures SplitAtBlankLine(Encode(HeadText(lines)) + body) == Some((Encode(Join(lines, CRLF)), body))
  {
    var first := Encode(lines[0]) + [CR, LF];
    SplitAfterFirstLine(lines, body);
    JoinEncodeStep(lines);
    assert first + Encode(Join(lines[1..], CRLF)) == Encode(Join(lines, CRLF));
  }

  /** The cut of a framing skips its first line. */
  lemma SplitAfterFirstLine(lines: seq<string>, body: seq<byte>)
    requires |lines| >= 2 && FramableLines(lines)
    ensures SplitAtBlankLine(Encode(HeadText(lines)) + body)
         == PrependHead(Encode(lines[0]) + [CR, LF], SplitAtBlankLine(Encode(HeadText(lines[1..])) + body))
  {
    var first := lines[0];
    var rest := lines[1..];
    var tail := HeadText(rest);
    NoLineFeedEncoded(first);
    assert HeadText(lines) == first + (CRLF + tail);
    EncodeLineBreak(first, tail);
    TailNotBlank(rest);
    NoLeadingCrlfEncoded(tail);
    assert !StartsWithCrlf(Encode(tail) + body) by {
      assert |Encode(tail)| >= |tail| >= 3;
      assert (Encode(tail) + body)[..2] == Encode(tail)[..2];
    }
    assert Encode(HeadText(lines)) + body == Encode(first) + [CR, LF] + (Encode(tail) + body);
    BlankLineAfterLine(Encode(first), Encode(tail) + body);
  }

  /** The encoded join is the first line, CR LF, and the encoded join of the rest. */
  lemma JoinEncodeStep(lines: seq<string>)
    requires |lines| >= 2
    ensures Encode(Join(lines, CRLF)) == Encode(lines[0]) + [CR, LF] + Encode(Join(lines[1..], CRLF))
  {
    var j := Join(lines[1..], CRLF);
    assert Join(lines, CRLF) == lines[0] + CRLF + j;
    Reassociate(lines[0], CRLF, j);
    EncodeLineBreak(lines[0], j);
  }

  /** Encoding a line break between two texts puts CR LF between their encodings. */
  lemma EncodeLineBreak(a: string, b: string)
    ensures Encode(a + (CRLF + b)) == Encode(a) + [CR, LF] + Encode(b)
  {
    EncodeAppend(a, CRLF + b);
    EncodeAppend(CRLF, b);
    EncodeCrlf();
  }

  /** The head text of framable lines is at least three characters and does not start with CR LF. */
  lemma TailNotBlank(rest: seq<string>)
    requires |rest| >= 1 && FramableLines(rest)
    ensures var tail := HeadText(rest);
      |tail| >= 3 && !(tail[0] == '\r' && tail[1] == '\n')
  {
    var tail := HeadText(rest);
    assert tail == rest[0] + (CRLF + HeadText(rest[1..]));
    if |rest[0]| >= 2 {
      assert tail[1] == rest[0][1];
    } else {
      assert tail[1] == '\r';
    }
  }

  /** A framed response is read back line by line, with the body untouched. */
  lemma ParseFramed(lines: seq<string>, body: seq<byte>)
    requires |lines| >= 1 && FramableLines(lines)
    ensures ParseResponse(Encode(HeadText(lines)) + body) == ParseLines(lines, body)
  {
    SplitFramed(lines, body);
    DecodeEncode(Join(lines, CRLF));
    SplitJoinLines(lines);
  }

  /** `ParseFramed` for bytes already known to be a framing, kept apart from their definition. */
  lemma ParseFramedBytes(b: seq<byte>, lines: seq<string>, body: seq<byte>)
    requires |lines| >= 1 && FramableLines(lines)
    requires b == Encode(HeadText(lines)) + body
    ensures ParseResponse(b) == ParseLines(lines, body)
  {
    ParseFramed(lines, body);
  }

  lemma StatusLineRoundTrip(code: string, reason: string)
    requires ' ' !in code
    ensures ParseStatusLine("HTTP/1.0 " + code + " " + reason) == Some((code, reason))
  {
    var line := "HTTP/1.0 " + code + " " + reason;
    assert line[..9] == "HTTP/1.0 ";
    var rest := line[9..];
    assert rest == code + " " + reason;
    assert rest[|code|] == ' ';
    var k := Find(rest, ' ');
    assert k == |code|;
    assert rest[..k] == code;
    assert rest[k + 1..] == reason;
  }

  lemma HeaderRoundTrip(name: string, value: string)
    requires ':' !in name
    ensures ParseHeader(name + ": " + value) == Some(Header(name, value))
  {
    var line := name + ": " + value;
    assert line[|name|] == ':';
    var k := Find(line, ':');
    assert k == |name|;
    assert line[k + 1..] == " " + value;
    assert StartsWith(line[k + 1..], " ");
    assert line[..k] == name;
    assert line[k + 2..] == value;
  }

  lemma Reassociate<T>(a: seq<T>, b: seq<T>, c: seq<T>)
    ensures a + b + c == a + (b + c)
  {
  }

  lemma HeadTextOfTwo(a: string, b: string)
    ensures HeadText([a, b]) == a + CRLF + (b + CRLF + CRLF)
  {
    assert [a, b][1..] == [b];
    assert [b][1..] == [];
    assert HeadText([b]) == b + CRLF + HeadText([]);
  }

  lemma HeadTextOfThree(a: string, b: string, c: string)
    ensures HeadText([a, b, c]) == a + CRLF + (b + CRLF + (c + CRLF + CRLF))
  {
    assert [a, b, c][1..] == [b, c];
    HeadTextOfTwo(b, c);
  }

  /** The header block `send_response` builds is the framing of its lines. */
  lemma ResponseHeadFraming(code: string, message: string, contentType: Option<string>, length: nat)
    ensures ResponseHead(code, message, contentType, length) == HeadText(ResponseLines(code, message, contentType, length))
  {
    var s := "HTTP/1.0 " + code + " " + message;
    var l := Header("Content-Length", NatToString(length)).Line();
    var hl := HeaderLines(ResponseHeaders(contentType, length));
    if contentType.Some? && contentType.value != "" {
      var c := Header("Content-Type", contentType.value).Line();
      assert |hl| == 2 && hl[0] == c && hl[1] == l;
      assert ResponseLines(code, message, contentType, length) == [s, c, l];
      TypedHeadFraming(code, message, contentType.value, length);
    } else {
      assert |hl| == 1 && hl[0] == l;
      assert ResponseLines(code, message, contentType, length) == [s, l];
      UntypedHeadFraming(code, message, contentType, length);
    }
  }

  lemma TypedHeadFraming(code: string, message: string, contentType: string, length: nat)
    requires contentType != ""
    ensures ResponseHead(code, message, Some(contentType), length)
         == HeadText(["HTTP/1.0 " + code + " " + message,
                      Header("Content-Type", contentType).Line(),
                      Header("Content-Length", NatToString(length)).Line()])
  {
    var s := "HTTP/1.0 " + code + " " + message;
    var n := NatToString(length);
    var c := "Content-Type: " + contentType;
    var l := "Content-Length: " + n;
    assert "Content-Type" + ": " == "Content-Type: ";
    assert "Content-Length" + ": " == "Content-Length: ";
    HeadTextOfThree(s, c, l);
    var status := s + CRLF;
    var typed := status + "Content-Type: " + contentType + CRLF;
    Reassociate(status, "Content-Type: ", contentType);
    assert typed == status + c + CRLF;
    var sized := typed + "Content-Length: " + n + CRLF;
    Reassociate(typed, "Content-Length: ", n);
    assert sized == typed + l + CRLF;
    assert ResponseHead(code, message, Some(contentType), length) == sized + CRLF;
    assert sized + CRLF == s + CRLF + (c + CRLF + (l + CRLF + CRLF));
  }

  lemma UntypedHeadFraming(code: string, message: string, contentType: Option<string>, length: nat)
    requires !(contentType.Some? && contentType.value != "")
    ensures ResponseHead(code, message, contentType, length)
         == HeadText(["HTTP/1.0 " + code + " " + message, Header("Content-Length", NatToString(length)).Line()])
  {
    var s := "HTTP/1.0 " + code + " " + message;
    var n := NatToString(length);
    var l := "Content-Length: " + n;
    assert "Content-Length" + ": " == "Content-Length: ";
    HeadTextOfTwo(s, l);
    var status := s + CRLF;
    var sized := status + "Content-Length: " + n + CRLF;
    Reassociate(status, "Content-Length: ", n);
    assert sized == status + l + CRLF;
    assert ResponseHead(code, message, contentType, length) == sized + CRLF;
    assert sized + CRLF == s + CRLF + (l + CRLF + CRLF);
  }

  /** Header lines whose names hold no colon read back as the headers. */
  lemma {:induction false} ParseHeaderLines(headers: seq<Header>)
    requires forall i :: 0 <= i < |headers| ==> ':' !in headers[i].name
    ensures ParseHeaders(HeaderLines(headers)) == Some(headers)
    decreases |headers|
  {
    if headers != [] {
      var lines := HeaderLines(headers);
      HeaderRoundTrip(headers[0].name, headers[0].value);
      assert lines[0] == headers[0].Line();
      assert lines[1..] == HeaderLines(headers[1..]);
      ParseHeaderLines(headers[1..]);
      assert [headers[0]] + headers[1..] == headers;
    }
  }

  /** A status line and colon-free header names read back as they were written. */
  lemma ParseStatusAndHeaders(code: string, reason: string, headers: seq<Header>, body: seq<byte>)
    requires ' ' !in code
    requires forall i :: 0 <= i < |headers| ==> ':' !in headers[i].name
    ensures ParseLines(["HTTP/1.0 " + code + " " + reason] + HeaderLines(headers), body)
         == Some(Message(code, reason, headers, body))
  {
    var lines := ["HTTP/1.0 " + code + " " + reason] + HeaderLines(headers);
    StatusLineRoundTrip(code, reason);
    assert lines[1..] == HeaderLines(headers);
    ParseHeaderLines(headers);
  }

  /**
   What `send_response` writes reads back as the same status, the
   `Content-Type` (when one was given) and `Content-Length` headers, and
   exactly the body bytes, binary or not.
   */
  lemma SendResponseRoundTrip(code: string, message: string, body: seq<byte>, contentType: Option<string>)
    requires ' ' !in code && '\n' !in code && '\n' !in message
    requires contentType.Some? ==> '\n' !in contentType.value
    ensures ParseResponse(SendResponse(code, message, body, contentType))
         == Some(Message(code, message, ResponseHeaders(contentType, |body|), body))
  {
    SendResponseFramed(code, message, body, contentType);
    ResponseHeaderNames(contentType, |body|);
    ParseStatusAndHeaders(code, message, ResponseHeaders(contentType, |body|), body);
  }

  lemma SendResponseFramed(code: string, message: string, body: seq<byte>, contentType: Option<string>)
    requires '\n' !in code && '\n' !in message
    requires contentType.Some? ==> '\n' !in contentType.value
    ensures ParseResponse(SendResponse(code, message, body, contentType))
         == ParseLines(ResponseLines(code, message, contentType, |body|), body)
  {
    var lines := ResponseLines(code, message, contentType, |body|);
    ResponseHeadFraming(code, message, contentType, |body|);
    ResponseLinesFramable(code, message, contentType, |body|);
    ParseFramedBytes(SendResponse(code, message, body, contentType), lines, body);
  }

  lemma ResponseHeaderNames(contentType: Option<string>, length: nat)
    ensures forall i :: 0 <= i < |ResponseHeaders(contentType, length)| ==> ':' !in ResponseHeaders(contentType, length)[i].name
  {
    assert ':' !in "Content-Type" && ':' !in "Content-Length";
  }

  lemma ResponseLinesFramable(code: string, message: string, contentType: Option<string>, length: nat)
    requires '\n' !in code && '\n' !in message
    requires contentType.Some? ==> '\n' !in contentType.value
    ensures FramableLines(ResponseLines(code, message, contentType, length))
  {
    var n := NatToString(length);
    var s := "HTTP/1.0 " + code + " " + message;
    assert '\n' !in n by {
      assert forall i :: 0 <= i < |n| ==> n[i] != '\n';
    }
    StatusLineFree(code, message);
    var lh := Header("Content-Length", n);
    HeaderLineFree(lh);
    var hl := HeaderLines(ResponseHeaders(contentType, length));
    if contentType.Some? && contentType.value != "" {
      var ch := Header("Content-Type", contentType.value);
      HeaderLineFree(ch);
      assert |hl| == 2 && hl[0] == ch.Line() && hl[1] == lh.Line();
      assert [s] + hl == [s, ch.Line(), lh.Line()];
      FramableThree(s, ch.Line(), lh.Line());
    } else {
      assert |hl| == 1 && hl[0] == lh.Line();
      assert [s] + hl == [s, lh.Line()];
    }
  }

  lemma StatusLineFree(code: string, message: string)
    requires '\n' !in code && '\n' !in message
    ensures '\n' !in "HTTP/1.0 " + code + " " + message
  {
    assert '\n' !in "HTTP/1.0 ";
  }

  /** A header whose name and value hold no line feed is one non-empty line. */
  lemma HeaderLineFree(h: Header)
    requires '\n' !in h.name && '\n' !in h.value
    ensures '\n' !in h.Line() && h.Line() != []
  {
    assert '\n' !in ": ";
  }

  /** The `Content-Length` a client reads from `send_response` is the body's length. */
  lemma SendResponseContentLength(code: string, message: string, body: seq<byte>, contentType: Option<string>)
    requires ' ' !in code && '\n' !in code && '\n' !in message
    requires contentType.Some? ==> '\n' !in contentType.value
    ensures ParseResponse(SendResponse(code, message, body, contentType)).Some?
    ensures ContentLength(ParseResponse(SendResponse(code, message, body, contentType)).value) == Some(|body|)
  {
    SendResponseRoundTrip(code, message, body, contentType);
    ParseNatToString(|body|);
    var hs := ResponseHeaders(contentType, |body|);
    var cl := Header("Content-Length", NatToString(|body|));
    if contentType.Some? && contentType.value != "" {
      assert hs == [Header("Content-Type", contentType.value), cl];
      assert hs[1..] == [cl];
    } else {
      assert hs == [cl];
    }
    assert HeaderValue(hs, "Content-Length") == Some(NatToString(|body|));
  }

  const RedirectStatus: string := "HTTP/1.0 302 Found"

  /** The headers of the hand-built 302. */
  function RedirectHeaders(location: string): seq<Header> {
    [Header("Location", "/" + location), Header("Content-Length", "0")]
  }

  /** The hand-built 302 is the framing of its three lines. */
  lemma RedirectFraming(location: string)
    ensures RedirectResponse(location) == Encode(HeadText([RedirectStatus] + HeaderLines(RedirectHeaders(location))))
  {
    var loc := "Location: /" + location;
    var l := "Content-Length: 0";
    var hl := HeaderLines(RedirectHeaders(location));
    assert "Location" + ": " == "Location: " && "Content-Length" + ": " == "Content-Length: ";
    assert |hl| == 2 && hl[0] == loc && hl[1] == l;
    var lines := [RedirectStatus] + hl;
    assert lines == [RedirectStatus, loc, l];
    assert lines[1..] == [loc, l] && lines[1..][1..] == [l] && [l][1..] == [];
    assert HeadText([]) == CRLF;
    assert HeadText([l]) == l + CRLF + CRLF;
    assert HeadText([loc, l]) == loc + CRLF + HeadText([l]);
    assert HeadText(lines) == RedirectStatus + CRLF + HeadText([loc, l]);
    assert HeadText(lines)
        == "HTTP/1.0 302 Found\r\n" + "Location: /" + location + "\r\n" + "Content-Length: 0\r\n" + "\r\n";
  }

  lemma RedirectLinesFramable(location: string)
    requires '\n' !in location
    ensures FramableLines([RedirectStatus] + HeaderLines(RedirectHeaders(location)))
  {
    var hl := HeaderLines(RedirectHeaders(location));
    var lh := Header("Location", "/" + location);
    var ch := Header("Content-Length", "0");
    assert |hl| == 2 && hl[0] == lh.Line() && hl[1] == ch.Line();
    HeaderLineFree(lh);
    HeaderLineFree(ch);
    assert '\n' !in RedirectStatus;
    FramableThree(RedirectStatus, lh.Line(), ch.Line());
    assert [RedirectStatus] + hl == [RedirectStatus, lh.Line(), ch.Line()];
  }

  lemma FramableThree(a: string, b: string, c: string)
    requires a != [] && b != [] && c != []
    requires '\n' !in a && '\n' !in b && '\n' !in c
    ensures FramableLines([a, b, c])
  {
  }

  /** The hand-built 302 reads back as `302 Found` with `Location: /<target>` and no body. */
  lemma RedirectRoundTrip(location: string)
    requires '\n' !in location
    ensures ParseResponse(RedirectResponse(location)) == Some(Message("302", "Found", RedirectHeaders(location), []))
  {
    RedirectParsesAsLines(location);
    RedirectLinesParse(location);
  }

  lemma RedirectParsesAsLines(location: string)
    requires '\n' !in location
    ensures ParseResponse(RedirectResponse(location)) == ParseLines([RedirectStatus] + HeaderLines(RedirectHeaders(location)), [])
  {
    var lines := [RedirectStatus] + HeaderLines(RedirectHeaders(location));
    RedirectFraming(location);
    RedirectLinesFramable(location);
    assert RedirectResponse(location) == RedirectResponse(location) + [];
    ParseFramedBytes(RedirectResponse(location), lines, []);
  }

  lemma RedirectLinesParse(location: string)
    ensures ParseLines([RedirectStatus] + HeaderLines(RedirectHeaders(location)), []) == Some(Message("302", "Found", RedirectHeaders(location), []))
  {
    assert RedirectStatus == "HTTP/1.0 " + "302" + " " + "Found";
    ParseStatusAndHeaders("302", "Found", RedirectHeaders(location), []);
  }
}

=== FILE: server_config.dfy ===
/**
 The configuration the server ships with and what it does with a few
 concrete requests.  `secret.html` and `private.txt` are forbidden,
 `page1.html` redirects to `page2.html`, and the root serves `index.html`.

 The scenario lemmas state their requests by a literal first line, and the
 general lemmas they call take the line as `GET /` + name + version.  Equating
 the two means evaluating string literals, which is costly for the solver
 when it shares a proof with other obligations; `PolicyLines`, `TypedLines`,
 `RootLines` and `TokenLines` hold those equations by themselves, a few at a
 time, so each scenario only cites them.
 */
module ServerConfig {
  import opened Wrappers
  import opened Utf8
  import opened Text
  import opened Files
  import opened ContentType
  import opened Validator
  import opened Response
  import opened Resolver
  import opened Handler

  const Server: Config := Config(["secret.html", "private.txt"], map["page1.html" := "page2.html"], "index.html")

  /** The shipped redirect targets can be written as header values. */
  lemma ServerValid()
    ensures ValidConfig(Server)
  {
    forall k | k in Server.redirects
      ensures '\n' !in Server.redirects[k]
    {
      assert k == "page1.html";
    }
  }

  /** The concrete lines of the redirected and the forbidden request, spelt as `GET /<name> HTTP/1.1`. */
  lemma PolicyLines()
    ensures "GET /page1.html HTTP/1.1" == "GET /" + "page1.html" + " HTTP/1.1"
    ensures "GET /secret.html HTTP/1.1" == "GET /" + "secret.html" + " HTTP/1.1"
  {
  }

  /** The concrete lines of the typed requests, spelt as `GET /<name> HTTP/1.1`. */
  lemma TypedLines()
    ensures "GET /style.css HTTP/1.1" == "GET /" + "style.css" + " HTTP/1.1"
    ensures "GET /.js HTTP/1.1" == "GET /" + ".js" + " HTTP/1.1"
  {
  }

  /** The concrete lines of the root requests, spelt as the general lemmas take them. */
  lemma RootLines()
    ensures "GET / HTTP/1.1" == "GET / " + "HTTP/1.1"
    ensures "GET /index.html HTTP/1.1" == "GET /" + "index.html" + " HTTP/1.1"
  {
  }

  /** The concrete lines used below, spelt token by token. */
  lemma TokenLines()
    ensures "POST /index.html HTTP/1.1" == "POST" + " " + "/index.html" + " " + "HTTP/1.1"
    ensures "GET /index.html FTP/1.0" == "GET" + " " + "/index.html" + " " + "FTP/1.0"
    ensures "GET /index.html" == "GET" + " " + "/index.html"
    ensures "GET  /index.html HTTP/1.1" == "GET" + " " + "" + " " + "/index.html" + " " + "HTTP/1.1"
  {
  }

  /** A request whose first line is `GET /<name> HTTP/1.1` asks `handle_client_request` for `<name>`. */
  lemma SlashedRequest(fs: FileSystem, request: string, name: string)
    requires ' ' !in name && FirstLine(request) == "GET /" + name + " HTTP/1.1"
    ensures HandleClient(Server, fs, request) == Some(HandleClientRequestAsWritten(Server, fs, name))
    ensures HandleClientCorrected(Server, fs, request) == Some(HandleClientRequest(Server, fs, name))
  {
    var target := "/" + name;
    assert "GET /" + name + " HTTP/1.1" == "GET " + target + " " + "HTTP/1.1";
    assert StripLeadingSlash(target) == name;
    GetRequest(Server, fs, request, target, name, "HTTP/1.1");
  }

  /** A plain name that is neither the root nor slashed is looked up as it is. */
  lemma PlainResource(name: string)
    requires name != "" && name[0] != '/' && '/' !in name && name != "."
    ensures Normalize(Server, name) == name
    ensures Canonical(name) == name && NamesFile(name)
  {
    assert !StartsWith(name, "/");
    assert name != "/";
    PlainName(name);
  }

  /** The shipped forbidden names are written as the files they name. */
  lemma ServerListCanonical()
    ensures CanonicalList(Server.forbidden)
  {
    forall f | f in Server.forbidden
      ensures Canonical(f) == f
    {
      ForbiddenPlain(f);
      PlainName(f);
    }
  }

  /** `page1.html` is redirected to `/page2.html` whatever files exist. */
  lemma Page1Decision(fs: FileSystem)
    ensures HandleClientRequestAsWritten(Server, fs, "page1.html") == RedirectResponse("page2.html")
    ensures HandleClientRequest(Server, fs, "page1.html") == RedirectResponse("page2.html")
  {
    PlainResource("page1.html");
    assert "page1.html" in Server.redirects;
  }

  /** A request whose first line is `GET /page1.html HTTP/1.1` is answered with a 302 to `/page2.html`. */
  lemma Page1Redirects(fs: FileSystem, request: string)
    requires FirstLine(request) == "GET /page1.html HTTP/1.1"
    ensures HandleClient(Server, fs, request) == Some(RedirectResponse("page2.html"))
  {
    PolicyLines();
    SlashedRequest(fs, request, "page1.html");
    Page1Decision(fs);
  }

  /** `secret.html` is refused even when the file exists. */
  lemma SecretDecision(fs: FileSystem)
    ensures HandleClientRequestAsWritten(Server, fs, "secret.html") == SendResponse("403", "Forbidden", [], None)
    ensures HandleClientRequest(Server, fs, "secret.html") == SendResponse("403", "Forbidden", [], None)
  {
    PlainResource("secret.html");
    assert "secret.html" !in Server.redirects;
    assert "secret.html" in Server.forbidden;
    ServerListCanonical();
    AgreesOnCanonicalNames(Server, fs, "secret.html");
  }

  /** A request whose first line is `GET /secret.html HTTP/1.1` is answered with 403. */
  lemma SecretForbidden(fs: FileSystem, request: string)
    requires FirstLine(request) == "GET /secret.html HTTP/1.1"
    ensures HandleClient(Server, fs, request) == Some(SendResponse("403", "Forbidden", [], None))
  {
    PolicyLines();
    SlashedRequest(fs, request, "secret.html");
    SecretDecision(fs);
  }

  /** A plain name outside both lists is served when it exists and is a 404 otherwise. */
  lemma PlainFileDecision(fs: FileSystem, name: string)
    requires name != "" && name[0] != '/' && '/' !in name && name != "."
    requires name !in Server.redirects && name !in Server.forbidden
    ensures name in fs ==> HandleClientRequestAsWritten(Server, fs, name) == SendResponse("200", "OK", fs[name], Some(ContentTypeOf(name)))
    ensures name !in fs ==> HandleClientRequestAsWritten(Server, fs, name) == SendResponse("404", "Not Found", [], None)
    ensures HandleClientRequest(Server, fs, name) == HandleClientRequestAsWritten(Server, fs, name)
  {
    PlainResource(name);
    ServerListCanonical();
    AgreesOnCanonicalNames(Server, fs, name);
  }

  /**
   Every name ending in `.html` gets `text/html`: its extension is `.html`,
   or nothing for names such as `.html` and `d/..html`, and both give the
   default.
   */
  lemma HtmlType(p: string)
    ensures ContentTypeOf(p + ".html") == TextHtml
  {
    HtmlSuffix();
    DefaultSuffixType(p, ".html");
  }

  /** A doubled dot before `html` still leaves `.html` as the extension. */
  lemma DoubleDotExtension()
    ensures Extension("a..html") == ".html"
  {
    HtmlSuffix();
    assert "a..html" == "a." + ".html";
    assert RFind("a.", '/') == -1;
    ExtensionOfDottedSuffix("a.", ".html");
  }

  /** `.html` is a lower-case extension whose type is the default. */
  lemma HtmlSuffix()
    ensures var e := ".html";
      && e[0] == '.' && '.' !in e[1..] && '/' !in e[1..]
      && Lower(e) == e && TypeForExtension(e) == TextHtml
  {
    LowerFixed(".html");
  }

  /** The forbidden names are plain file names. */
  lemma ForbiddenPlain(name: string)
    requires name in Server.forbidden
    ensures '/' !in name && Kept(name) && ' ' !in name && '\n' !in name && name[0] != '.'
  {
    assert name == "secret.html" || name == "private.txt";
  }

  /**
   A request whose first line is `GET /./<name> HTTP/1.1` for a forbidden
   name: the validator hands over `./<name>`, which the code as written serves
   with 200 and the file's contents, while the corrected handler answers 403.
   */
  lemma ForbiddenServedAsWritten(fs: FileSystem, request: string, name: string)
    requires name in Server.forbidden && name in fs
    requires FirstLine(request) == "GET /./" + name + " HTTP/1.1"
    ensures ValidateHttpRequest(request).resource == "./" + name
    ensures HandleClient(Server, fs, request) == Some(SendResponse("200", "OK", fs[name], Some(ContentTypeOf("./" + name))))
    ensures HandleClientCorrected(Server, fs, request) == Some(SendResponse("403", "Forbidden", [], None))
  {
    ForbiddenPlain(name);
    var dotted := "./" + name;
    assert "GET /./" + name + " HTTP/1.1" == "GET /" + dotted + " HTTP/1.1";
    ForbiddenValidated(request, dotted);
    SlashedRequest(fs, request, dotted);
    ForbiddenDecision(fs, name, dotted);
  }

  lemma ForbiddenValidated(request: string, dotted: string)
    requires ' ' !in dotted && FirstLine(request) == "GET /" + dotted + " HTTP/1.1"
    ensures ValidateHttpRequest(request).resource == dotted
  {
    var target := "/" + dotted;
    assert "GET /" + dotted + " HTTP/1.1" == "GET " + target + " " + "HTTP/1.1";
    assert StripLeadingSlash(target) == dotted by {
      assert StartsWith(target, "/") && target[1..] == dotted;
    }
    AcceptedGet(request, target, dotted, "HTTP/1.1");
  }

  lemma ForbiddenDecision(fs: FileSystem, name: string, dotted: string)
    requires name in Server.forbidden && name in fs && dotted == "./" + name
    requires '/' !in name && Kept(name) && name[0] != '.'
    ensures HandleClientRequestAsWritten(Server, fs, dotted) == SendResponse("200", "OK", fs[name], Some(ContentTypeOf(dotted)))
    ensures HandleClientRequest(Server, fs, dotted) == SendResponse("403", "Forbidden", [], None)
  {
    assert dotted !in Server.redirects && dotted !in Server.forbidden by {
      assert dotted[0] == '.' && dotted[1] == '/';
    }
    DottedNormalized(dotted);
    ForbiddenBypassAsWritten(Server, fs, name);
  }

  lemma DottedNormalized(dotted: string)
    requires |dotted| > 0 && dotted[0] == '.'
    ensures Normalize(Server, dotted) == dotted
  {
    FirstDiffers(dotted, "/");
  }

  lemma FirstDiffers(s: string, p: string)
    requires |s| > 0 && |p| > 0 && s[0] != p[0]
    ensures !StartsWith(s, p)
  {
  }

  /** A `POST` is not understood and gets the 500, under any configuration. */
  lemma PostGetsInternalError(cfg: Config, fs: FileSystem, request: string)
    requires FirstLine(request) == "POST /index.html HTTP/1.1"
    ensures HandleClient(cfg, fs, request) == Some(InternalError())
  {
    TokenLines();
    RefusedTokens(cfg, fs, request, "POST", "/index.html", "HTTP/1.1");
  }

  /** A version that does not start with `HTTP/` gets the 500. */
  lemma BadVersionGetsInternalError(cfg: Config, fs: FileSystem, request: string)
    requires FirstLine(request) == "GET /index.html FTP/1.0"
    ensures HandleClient(cfg, fs, request) == Some(InternalError())
  {
    FirstDiffers("FTP/1.0", "HTTP/");
    TokenLines();
    RefusedTokens(cfg, fs, request, "GET", "/index.html", "FTP/1.0");
  }

  /** A request line without a version has one space too few and gets the 500. */
  lemma MissingVersionGetsInternalError(cfg: Config, fs: FileSystem, request: string)
    requires FirstLine(request) == "GET /index.html"
    ensures HandleClient(cfg, fs, request) == Some(InternalError())
  {
    TokenLines();
    TwoTokensGetInternalError(cfg, fs, request, "GET", "/index.html");
  }

  /** A doubled space between method and target makes four tokens and gets the 500. */
  lemma DoubledSpaceGetsInternalError(cfg: Config, fs: FileSystem, request: string)
    requires FirstLine(request) == "GET  /index.html HTTP/1.1"
    ensures HandleClient(cfg, fs, request) == Some(InternalError())
  {
    TokenLines();
    FourTokensGetInternalError(cfg, fs, request, "GET", "", "/index.html", "HTTP/1.1");
  }

  /** `style.css` is served as `text/css`. */
  lemma StylesheetDecision(fs: FileSystem)
    requires "style.css" in fs
    ensures HandleClientRequestAsWritten(Server, fs, "style.css") == SendResponse("200", "OK", fs["style.css"], Some(TextCss))
  {
    PlainFileDecision(fs, "style.css");
    CssType();
  }

  lemma CssType()
    ensures ContentTypeOf("style.css") == TextCss
  {
    ContentTypeOfSuffix("style", ".css");
    assert "style.css" == "style" + ".css";
    LowerFixed(".css");
    assert Table[".css"] == TextCss;
  }

  /** A request whose first line is `GET /style.css HTTP/1.1` gets the stylesheet as `text/css`. */
  lemma StylesheetServed(fs: FileSystem, request: string)
    requires FirstLine(request) == "GET /style.css HTTP/1.1" && "style.css" in fs
    ensures HandleClient(Server, fs, request)
         == Some(SendResponse("200", "OK", fs["style.css"], Some(TextCss)))
  {
    TypedLines();
    SlashedRequest(fs, request, "style.css");
    StylesheetDecision(fs);
  }

  /** `.js` is a dot file without an extension, so it is served as `text/html`. */
  lemma DotJsDecision(fs: FileSystem)
    requires ".js" in fs
    ensures HandleClientRequestAsWritten(Server, fs, ".js") == SendResponse("200", "OK", fs[".js"], Some(TextHtml))
  {
    PlainFileDecision(fs, ".js");
    DotFileHasDefaultType([], ".", "js");
    assert [] + "." + "js" == ".js";
  }

  /** A request whose first line is `GET /.js HTTP/1.1` is served as `text/html`, not as JavaScript. */
  lemma DotJsServedAsHtml(fs: FileSystem, request: string)
    requires FirstLine(request) == "GET /.js HTTP/1.1" && ".js" in fs
    ensures HandleClient(Server, fs, request)
         == Some(SendResponse("200", "OK", fs[".js"], Some(TextHtml)))
  {
    TypedLines();
    SlashedRequest(fs, request, ".js");
    DotJsDecision(fs);
  }

  /** `GET / HTTP/1.1` is answered exactly as `GET /index.html HTTP/1.1`. */
  lemma RootServesIndex(fs: FileSystem, root: string, index: string)
    requires FirstLine(root) == "GET / HTTP/1.1" && FirstLine(index) == "GET /index.html HTTP/1.1"
    ensures HandleClient(Server, fs, root) == HandleClient(Server, fs, index)
  {
    RootAnswer(fs, root);
    IndexAnswer(fs, index);
    RootIsDefaultFile(Server, fs);
  }

  lemma RootAnswer(fs: FileSystem, root: string)
    requires FirstLine(root) == "GET / HTTP/1.1"
    ensures HandleClient(Server, fs, root) == Some(HandleClientRequestAsWritten(Server, fs, ""))
  {
    RootLines();
    RootTarget(Server, fs, root, "HTTP/1.1");
  }

  lemma IndexAnswer(fs: FileSystem, index: string)
    requires FirstLine(index) == "GET /index.html HTTP/1.1"
    ensures HandleClient(Server, fs, index) == Some(HandleClientRequestAsWritten(Server, fs, "index.html"))
  {
    RootLines();
    SlashedRequest(fs, index, "index.html");
  }
}

=== FILE: text.dfy ===
/**
 String helpers with Python's meaning: `str.split(sep)`, `str.startswith`,
 `str.rfind`, `str.find`, and the decimal rendering of a length in an f-string.
 Each comes with the property that pins it down (a round trip or a
 characterisation), so the server model can rely on them.
 */
module Text {
  import opened Wrappers

  const CRLF: string := "\r\n"

  predicate StartsWith<T(==)>(s: seq<T>, prefix: seq<T>) {
    |prefix| <= |s| && s[..|prefix|] == prefix
  }

  /** `sep` occurs in `s` starting at index `i`. */
  predicate MatchAt<T(==)>(s: seq<T>, sep: seq<T>, i: nat) {
    i + |sep| <= |s| && s[i..i + |sep|] == sep
  }

  /** No occurrence of `sep` in `s` starts before index `k`. */
  predicate NoMatchBefore<T(==)>(s: seq<T>, sep: seq<T>, k: nat) {
    forall i: nat :: i < k ==> !MatchAt(s, sep, i)
  }

  /**
   Python's `s.split(sep)` for a non-empty separator: scanning left to right,
   every non-overlapping occurrence of `sep` ends one piece and starts the next.
   There is always at least one piece.
   */
  function Split<T(==)>(s: seq<T>, sep: seq<T>): (r: seq<seq<T>>)
    requires |sep| > 0
    ensures |r| >= 1
    decreases |s|
  {
    if |s| < |sep| then [s]
    else if s[..|sep|] == sep then [[]] + Split(s[|sep|..], sep)
    else
      var rest := Split(s[1..], sep);
      [[s[0]] + rest[0]] + rest[1..]
  }

  /** Python's `sep.join(parts)`. */
  function Join<T>(parts: seq<seq<T>>, sep: seq<T>): seq<T>
    requires |parts| >= 1
  {
    if |parts| == 1 then parts[0] else parts[0] + sep + Join(parts[1..], sep)
  }

  /** Prepending an element to the first piece prepends it to the join. */
  lemma JoinConsFirst<T>(x: T, rest: seq<seq<T>>, sep: seq<T>)
    requires |rest| >= 1
    ensures Join([[x] + rest[0]] + rest[1..], sep) == [x] + Join(rest, sep)
  {
    var r := [[x] + rest[0]] + rest[1..];
    assert r[0] == [x] + rest[0];
    assert r[1..] == rest[1..];
  }

  /** A join begins with its first piece. */
  lemma JoinStartsWithFirst<T>(parts: seq<seq<T>>, sep: seq<T>)
    requires |parts| >= 1
    ensures StartsWith(Join(parts, sep), parts[0])
  {
    if |parts| > 1 {
      var j := Join(parts, sep);
      assert j == parts[0] + (sep + Join(parts[1..], sep));
      assert j[..|parts[0]|] == parts[0];
    }
  }

  /** Joining the pieces with the separator gives back the string. */
  lemma {:induction false} JoinSplit<T>(s: seq<T>, sep: seq<T>)
    requires |sep| > 0
    ensures Join(Split(s, sep), sep) == s
    decreases |s|
  {
    if |s| < |sep| {
    } else if s[..|sep|] == sep {
      JoinSplit(s[|sep|..], sep);
      JoinSplitAtSeparator(s, sep);
    } else {
      JoinSplit(s[1..], sep);
      JoinSplitElsewhere(s, sep);
    }
  }

  lemma JoinSplitAtSeparator<T>(s: seq<T>, sep: seq<T>)
    requires 0 < |sep| <= |s| && s[..|sep|] == sep
    requires Join(Split(s[|sep|..], sep), sep) == s[|sep|..]
    ensures Join(Split(s, sep), sep) == s
  {
    var tail := s[|sep|..];
    SplitAtSeparator(s, sep);
    JoinEmptyFirst(Split(tail, sep), sep);
    assert s == s[..|sep|] + tail;
  }

  lemma SplitAtSeparator<T>(s: seq<T>, sep: seq<T>)
    requires 0 < |sep| <= |s| && s[..|sep|] == sep
    ensures Split(s, sep) == [[]] + Split(s[|sep|..], sep)
  {
  }

  lemma JoinEmptyFirst<T>(rest: seq<seq<T>>, sep: seq<T>)
    requires |rest| >= 1
    ensures Join([[]] + rest, sep) == sep + Join(rest, sep)
  {
    var parts: seq<seq<T>> := [[]] + rest;
    assert parts[0] == [] && parts[1..] == rest;
  }

  lemma JoinSplitElsewhere<T>(s: seq<T>, sep: seq<T>)
    requires 0 < |sep| <= |s| && s[..|sep|] != sep
    requires Join(Split(s[1..], sep), sep) == s[1..]
    ensures Join(Split(s, sep), sep) == s
  {
    var rest := Split(s[1..], sep);
    assert Split(s, sep) == [[s[0]] + rest[0]] + rest[1..];
    JoinConsFirst(s[0], rest, sep);
    assert [s[0]] + s[1..] == s;
  }

  lemma ShiftNoMatch<T>(s: seq<T>, sep: seq<T>, k: nat)
    requires |s| > 0 && k > 0
    requires NoMatchBefore(s, sep, k)
    ensures NoMatchBefore(s[1..], sep, k - 1)
  {
    forall i: nat | i < k - 1
      ensures !MatchAt(s[1..], sep, i)
    {
      assert !MatchAt(s, sep, i + 1);
      if i + |sep| <= |s[1..]| {
        assert s[1..][i..i + |sep|] == s[i + 1..i + 1 + |sep|];
      }
    }
  }

  /** A prefix free of the separator becomes the first piece. */
  lemma {:induction false} SplitFirst<T>(a: seq<T>, sep: seq<T>, b: seq<T>)
    requires |sep| > 0
    requires NoMatchBefore(a + sep + b, sep, |a|)
    ensures Split(a + sep + b, sep) == [a] + Split(b, sep)
    decreases |a|
  {
    var s := a + sep + b;
    if a == [] {
      assert s == sep + b;
      assert s[..|sep|] == sep;
      assert s[|sep|..] == b;
    } else {
      assert !MatchAt(s, sep, 0);
      assert s[..|sep|] != sep;
      ShiftNoMatch(s, sep, |a|);
      assert s[1..] == a[1..] + sep + b;
      SplitFirst(a[1..], sep, b);
      assert [a[0]] + a[1..] == a;
    }
  }

  /** A string free of the separator is a single piece. */
  lemma {:induction false} SplitNoMatch<T>(s: seq<T>, sep: seq<T>)
    requires |sep| > 0
    requires NoMatchBefore(s, sep, |s|)
    ensures Split(s, sep) == [s]
    decreases |s|
  {
    if |s| >= |sep| {
      assert !MatchAt(s, sep, 0);
      ShiftNoMatch(s, sep, |s|);
      SplitNoMatch(s[1..], sep);
      assert [s[0]] + s[1..] == s;
    }
  }

  /** Splitting on one character yields one more piece than there are occurrences. */
  lemma {:induction false} SplitCharCount<T>(s: seq<T>, c: T)
    ensures |Split(s, [c])| == multiset(s)[c] + 1
    decreases |s|
  {
    if s != [] {
      assert s == [s[0]] + s[1..];
      assert multiset(s) == multiset([s[0]]) + multiset(s[1..]);
      SplitCharCount(s[1..], c);
      assert s[..1] == [s[0]];
    }
  }

  /** No piece of a split on one character contains that character. */
  lemma {:induction false} SplitCharPieces<T>(s: seq<T>, c: T)
    ensures forall i :: 0 <= i < |Split(s, [c])| ==> c !in Split(s, [c])[i]
    decreases |s|
  {
    if s != [] {
      assert s[..1] == [s[0]];
      SplitCharPieces(s[1..], c);
    }
  }

  /** Strings without a line feed contain no CR LF before their end. */
  lemma LineFeedFreeNoMatch(a: string, b: string)
    requires '\n' !in a
    ensures NoMatchBefore(a + CRLF + b, CRLF, |a|)
    ensures NoMatchBefore(a, CRLF, |a|)
  {
    var s := a + CRLF + b;
    forall i: nat | i < |a|
      ensures !MatchAt(s, CRLF, i) && !MatchAt(a, CRLF, i)
    {
      if i + 1 < |a| {
        assert s[i + 1] == a[i + 1];
      } else {
        assert s[i + 1] == '\r';
      }
    }
  }

  /** `s` holds no CR immediately followed by LF. */
  predicate NoCrlf(s: string) {
    forall i :: 0 <= i < |s| - 1 ==> !(s[i] == '\r' && s[i + 1] == '\n')
  }

  /**
   A string without CR LF has no CR LF before its end, even when CR LF
   follows it: a final CR is followed by another CR.
   */
  lemma CrlfFreeNoMatch(a: string, b: string)
    requires NoCrlf(a)
    ensures NoMatchBefore(a + CRLF + b, CRLF, |a|)
    ensures NoMatchBefore(a, CRLF, |a|)
  {
    var s := a + CRLF + b;
    forall i: nat | i < |a|
      ensures !MatchAt(s, CRLF, i) && !MatchAt(a, CRLF, i)
    {
      assert s[i] == a[i];
      if i + 1 < |a| {
        assert s[i + 1] == a[i + 1];
        assert !(a[i] == '\r' && a[i + 1] == '\n');
      } else {
        assert s[i + 1] == '\r';
      }
    }
  }

  /** Strings without `c` have no occurrence of `[c]` before their end. */
  lemma CharFreeNoMatch<T>(a: seq<T>, c: T, b: seq<T>)
    requires c !in a
    ensures NoMatchBefore(a + [c] + b, [c], |a|)
    ensures NoMatchBefore(a, [c], |a|)
  {
    var s := a + [c] + b;
    forall i: nat | i < |a|
      ensures !MatchAt(s, [c], i) && !MatchAt(a, [c], i)
    {
      assert s[i] == a[i];
      assert s[i..i + 1] == [s[i]];
      assert a[i..i + 1] == [a[i]];
    }
  }

  /** Splitting the CR LF join of line-feed-free lines gives the lines back. */
  lemma {:induction false} SplitJoinLines(lines: seq<string>)
    requires |lines| >= 1
    requires forall i :: 0 <= i < |lines| ==> '\n' !in lines[i]
    ensures Split(Join(lines, CRLF), CRLF) == lines
    decreases |lines|
  {
    if |lines| == 1 {
      LineFeedFreeNoMatch(lines[0], []);
      SplitNoMatch(lines[0], CRLF);
    } else {
      var rest := Join(lines[1..], CRLF);
      LineFeedFreeNoMatch(lines[0], rest);
      SplitFirst(lines[0], CRLF, rest);
      SplitJoinLines(lines[1..]);
      assert [lines[0]] + lines[1..] == lines;
    }
  }

  /** Splitting the join of pieces free of `c` on `c` gives the pieces back. */
  lemma {:induction false} SplitJoinChar<T>(parts: seq<seq<T>>, c: T)
    requires |parts| >= 1
    requires forall i :: 0 <= i < |parts| ==> c !in parts[i]
    ensures Split(Join(parts, [c]), [c]) == parts
    decreases |parts|
  {
    if |parts| == 1 {
      CharFreeNoMatch(parts[0], c, []);
      SplitNoMatch(parts[0], [c]);
    } else {
      var rest := Join(parts[1..], [c]);
      CharFreeNoMatch(parts[0], c, rest);
      SplitFirst(parts[0], [c], rest);
      SplitJoinChar(parts[1..], c);
      assert [parts[0]] + parts[1..] == parts;
    }
  }

  /** Python's `s.rfind(x)`: the last index holding `x`, or -1. */
  function RFind<T(==)>(s: seq<T>, x: T): (r: int)
    ensures -1 <= r < |s|
    ensures r >= 0 ==> s[r] == x
    ensures forall j :: r < j < |s| ==> s[j] != x
  {
    if s == [] then -1
    else if s[|s| - 1] == x then |s| - 1
    else RFind(s[..|s| - 1], x)
  }

  /** Appending a part without `x` does not move the last `x`. */
  lemma RFindAppendAbsent<T>(a: seq<T>, b: seq<T>, x: T)
    requires x !in b
    ensures RFind(a + b, x) == RFind(a, x)
  {
    var r := RFind(a + b, x);
    var ra := RFind(a, x);
    if ra >= 0 {
      assert (a + b)[ra] == a[ra];
    }
    if r >= 0 {
      assert a[r] == (a + b)[r];
    }
  }

  /** The `x` placed before a part without `x` is the last one. */
  lemma RFindLast<T>(a: seq<T>, x: T, b: seq<T>)
    requires x !in b
    ensures RFind(a + [x] + b, x) == |a|
  {
    RFindAppendAbsent(a + [x], b, x);
    assert (a + [x])[|a|] == x;
  }

  /** Python's `s.find(x)`: the first index holding `x`, or -1. */
  function Find<T(==)>(s: seq<T>, x: T): (r: int)
    ensures -1 <= r < |s|
    ensures r >= 0 ==> s[r] == x
    ensures forall j :: 0 <= j < |s| && (r < 0 || j < r) ==> s[j] != x
  {
    if s == [] then -1
    else if s[0] == x then 0
    else
      var k := Find(s[1..], x);
      if k < 0 then -1 else k + 1
  }

  function DigitChar(d: nat): char
    requires d < 10
  {
    ('0' as int + d) as char
  }

  predicate IsDigit(c: char) {
    '0' as int <= c as int <= '9' as int
  }

  /** The decimal digits of `n` with no leading zero, as Python's `str(n)` writes them. */
  function NatToString(n: nat): (r: string)
    ensures |r| >= 1
    ensures forall i :: 0 <= i < |r| ==> IsDigit(r[i])
    ensures r[0] == '0' ==> n == 0 && |r| == 1
  {
    if n < 10 then [DigitChar(n)] else NatToString(n / 10) + [DigitChar(n % 10)]
  }

  function DigitsValue(s: string): nat
    requires forall i :: 0 <= i < |s| ==> IsDigit(s[i])
  {
    if s == [] then 0
    else
      assert IsDigit(s[|s| - 1]);
      DigitsValue(s[..|s| - 1]) * 10 + (s[|s| - 1] as int - '0' as int)
  }

  /** Reads a non-empty run of decimal digits. */
  function ParseNat(s: string): Option<nat> {
    if |s| >= 1 && forall i :: 0 <= i < |s| ==> IsDigit(s[i]) then Some(DigitsValue(s)) else None
  }

  /** Reading back a rendered number gives the number. */
  lemma {:induction false} ParseNatToString(n: nat)
    ensures ParseNat(NatToString(n)) == Some(n)
  {
    var r := NatToString(n);
    if n < 10 {
      assert r[..0] == [];
      assert DigitsValue(r) == DigitsValue([]) * 10 + n;
    } else {
      var p := NatToString(n / 10);
      ParseNatToString(n / 10);
      assert r == p + [DigitChar(n % 10)];
      assert r[..|p|] == p;
      assert DigitsValue(r) == DigitsValue(p) * 10 + n % 10;
    }
  }
}

=== FILE: utf8.dfy ===
/**
 Bytes and the UTF-8 encoding (RFC 3629, section 3) that the server applies to
 every header block it writes (`headers.encode('utf-8')`).  A Dafny `char` is a
 Unicode scalar value, so every string here has an encoding.  The decoder is the
 inverse used to state what a client reading the response recovers.
 */
module Utf8 {
  import opened Wrappers

  newtype byte = x: int | 0 <= x < 256

  const CR: byte := 13
  const LF: byte := 10

  /** Continuation bytes have the bit pattern 10xxxxxx. */
  predicate IsContinuation(b: byte) {
    0x80 <= b < 0xC0
  }

  /** The one- to four-byte encoding of a single scalar value. */
  function EncodeChar(c: char): (r: seq<byte>)
    ensures 1 <= |r| <= 4
    ensures |r| == 1 <==> c as int < 0x80
    ensures |r| == 1 ==> r[0] as int == c as int
    ensures |r| > 1 ==> forall i :: 0 <= i < |r| ==> r[i] >= 0x80
  {
    var n := c as int;
    if n < 0x80 then
      [n as byte]
    else if n < 0x800 then
      [(0xC0 + n / 0x40) as byte, (0x80 + n % 0x40) as byte]
    else if n < 0x1_0000 then
      [(0xE0 + n / 0x1000) as byte, (0x80 + (n / 0x40) % 0x40) as byte, (0x80 + n % 0x40) as byte]
    else
      [(0xF0 + n / 0x4_0000) as byte, (0x80 + (n / 0x1000) % 0x40) as byte,
       (0x80 + (n / 0x40) % 0x40) as byte, (0x80 + n % 0x40) as byte]
  }

  /** The encoding of a string: the encodings of its characters, in order. */
  function Encode(s: string): (r: seq<byte>)
    ensures |r| >= |s|
  {
    if s == [] then [] else EncodeChar(s[0]) + Encode(s[1..])
  }

  /**
   Decodes the first scalar value of `b`, returning it with the number of bytes
   it took.  Overlong forms, surrogates and values above U+10FFFF are refused.
   */
  function DecodeFirst(b: seq<byte>): (r: Option<(char, nat)>)
    ensures r.Some? ==> 1 <= r.value.1 <= |b|
  {
    if |b| == 0 then None
    else
      var b0 := b[0] as int;
      if b0 < 0x80 then
        Some((b0 as char, 1))
      else if 0xC2 <= b0 < 0xE0 then
        if |b| >= 2 && IsContinuation(b[1]) then
          var n := (b0 - 0xC0) * 0x40 + (b[1] as int - 0x80);
          Some((n as char, 2))
        else None
      else if 0xE0 <= b0 < 0xF0 then
        if |b| >= 3 && IsContinuation(b[1]) && IsContinuation(b[2]) then
          var n := (b0 - 0xE0) * 0x1000 + (b[1] as int - 0x80) * 0x40 + (b[2] as int - 0x80);
          if 0x800 <= n && !(0xD800 <= n < 0xE000) then Some((n as char, 3)) else None
        else None
      else if 0xF0 <= b0 < 0xF5 then
        if |b| >= 4 && IsContinuation(b[1]) && IsContinuation(b[2]) && IsContinuation(b[3]) then
          var n := (b0 - 0xF0) * 0x4_0000 + (b[1] as int - 0x80) * 0x1000
                   + (b[2] as int - 0x80) * 0x40 + (b[3] as int - 0x80);
          if 0x1_0000 <= n < 0x11_0000 then Some((n as char, 4)) else None
        else None
      else None
  }

  /** Decodes a whole byte sequence, or fails if it is not well-formed UTF-8. */
  function Decode(b: seq<byte>): Option<string>
    decreases |b|
  {
    if b == [] then Some([])
    else
      match DecodeFirst(b)
      case None => None
      case Some((c, k)) =>
        match Decode(b[k..])
        case None => None
        case Some(s) => Some([c] + s)
  }

  /** Encoding is a homomorphism from string concatenation to byte concatenation. */
  lemma {:induction false} EncodeAppend(a: string, b: string)
    ensures Encode(a + b) == Encode(a) + Encode(b)
  {
    if a != [] {
      assert (a + b)[1..] == a[1..] + b;
      EncodeAppend(a[1..], b);
    } else {
      assert a + b == b;
    }
  }

  lemma TwoByteArithmetic(n: int)
    requires 0x80 <= n < 0x800
    ensures 0xC2 <= 0xC0 + n / 0x40 < 0xE0
    ensures (n / 0x40) * 0x40 + n % 0x40 == n
  {
  }

  lemma ThreeByteArithmetic(n: int)
    requires 0x800 <= n < 0x1_0000
    ensures 0xE0 <= 0xE0 + n / 0x1000 < 0xF0
    ensures (n / 0x1000) * 0x1000 + ((n / 0x40) % 0x40) * 0x40 + n % 0x40 == n
  {
    var q := n / 0x40;
    assert q * 0x40 + n % 0x40 == n;
    assert (q / 0x40) * 0x40 + q % 0x40 == q;
    assert q / 0x40 == n / 0x1000;
  }

  lemma FourByteArithmetic(n: int)
    requires 0x1_0000 <= n < 0x11_0000
    ensures 0xF0 <= 0xF0 + n / 0x4_0000 < 0xF5
    ensures (n / 0x4_0000) * 0x4_0000 + ((n / 0x1000) % 0x40) * 0x1000
            + ((n / 0x40) % 0x40) * 0x40 + n % 0x40 == n
  {
    var q := n / 0x40;
    var p := q / 0x40;
    assert q * 0x40 + n % 0x40 == n;
    assert p * 0x40 + q % 0x40 == q;
    assert (p / 0x40) * 0x40 + p % 0x40 == p;
    assert p == n / 0x1000;
    assert p / 0x40 == n / 0x4_0000;
  }

  /** Decoding the encoding of one character gives it back, whatever follows. */
  lemma DecodeFirstEncodeChar(c: char, rest: seq<byte>)
    ensures DecodeFirst(EncodeChar(c) + rest) == Some((c, |EncodeChar(c)|))
  {
    var n := c as int;
    var b := EncodeChar(c) + rest;
    if n < 0x80 {
    } else if n < 0x800 {
      TwoByteArithmetic(n);
      assert b[0] as int == 0xC0 + n / 0x40;
      assert b[1] as int == 0x80 + n % 0x40;
    } else if n < 0x1_0000 {
      ThreeByteArithmetic(n);
      assert b[0] as int == 0xE0 + n / 0x1000;
      assert b[1] as int == 0x80 + (n / 0x40) % 0x40;
      assert b[2] as int == 0x80 + n % 0x40;
    } else {
      FourByteArithmetic(n);
      assert b[0] as int == 0xF0 + n / 0x4_0000;
      assert b[1] as int == 0x80 + (n / 0x1000) % 0x40;
      assert b[2] as int == 0x80 + (n / 0x40) % 0x40;
      assert b[3] as int == 0x80 + n % 0x40;
    }
  }

  /** Decoding undoes encoding. */
  lemma {:induction false} DecodeEncode(s: string)
    ensures Decode(Encode(s)) == Some(s)
  {
    if s != [] {
      var e := EncodeChar(s[0]);
      DecodeFirstEncodeChar(s[0], Encode(s[1..]));
      assert Encode(s)[|e|..] == Encode(s[1..]);
      DecodeEncode(s[1..]);
      assert [s[0]] + s[1..] == s;
    }
  }

  /** A line feed byte only comes from a line feed character. */
  lemma {:induction false} NoLineFeedEncoded(s: string)
    requires '\n' !in s
    ensures LF !in Encode(s)
  {
    if s != [] {
      assert s[0] != '\n';
      assert '\n' !in s[1..];
      NoLineFeedEncoded(s[1..]);
    }
  }

  /** Whether the bytes begin with a line break. */
  predicate StartsWithCrlf(b: seq<byte>) {
    |b| >= 2 && b[0] == CR && b[1] == LF
  }

  /** A string that does not start with CR LF does not encode to bytes that do. */
  lemma NoLeadingCrlfEncoded(s: string)
    requires !(|s| >= 2 && s[0] == '\r' && s[1] == '\n')
    ensures !StartsWithCrlf(Encode(s))
  {
    if s != [] && |Encode(s)| >= 2 && Encode(s)[0] == CR {
      assert s[0] == '\r';
      assert Encode(s) == [CR] + Encode(s[1..]);
      assert s[1..] != [];
      assert Encode(s)[1] == EncodeChar(s[1])[0];
    }
  }
}

=== FILE: validator.dfy ===
/**
 The request validator (`validate_http_request`): the first line of the
 decoded request is split on single spaces into method, target and version;
 only `GET` with a version starting `HTTP/` is understood.
 */
module Validator {
  import opened Wrappers
  import opened Text

  /** A request line that split into exactly three tokens. */
  datatype RequestLine = RequestLine(verb: string, target: string, version: string) {

    /** The line the tokens came from: the tokens joined by single spaces. */
    function ToString(): string {
      verb + " " + target + " " + version
    }

    /** No token contains the separator it was split on. */
    predicate WellFormed() {
      ' ' !in verb && ' ' !in target && ' ' !in version
    }
  }

  /** The triple `(valid, resource, internal_error)` the validator returns. */
  datatype Validation = Validation(valid: bool, resource: string, internalError: bool)

  /** Every rejection is `(False, '', True)`. */
  const Rejected := Validation(false, "", true)

  /** `request.split('\r\n')[0]`. */
  function FirstLine(request: string): string {
    Split(request, CRLF)[0]
  }

  /** Removes exactly one leading `/`, if there is one. */
  function StripLeadingSlash(s: string): string {
    if StartsWith(s, "/") then s[1..] else s
  }

  /**
   `request_line.split(' ')` followed by the three-token check.  A line splits
   into three tokens exactly when it holds exactly two spaces, so a doubled
   space or a missing version is refused; an accepted line is its three
   space-free tokens joined by single spaces.
   */
  function ParseRequestLine(line: string): (r: Option<RequestLine>)
    ensures r.Some? <==> multiset(line)[' '] == 2
    ensures r.Some? ==> r.value.WellFormed() && r.value.ToString() == line
  {
    SplitCharCount(line, ' ');
    var parts := Split(line, " ");
    if |parts| != 3 then None
    else
      ThreeTokens(line);
      Some(RequestLine(parts[0], parts[1], parts[2]))
  }

  /** Three pieces of a split on spaces are space-free and rejoin to the line. */
  lemma ThreeTokens(line: string)
    requires |Split(line, " ")| == 3
    ensures var parts := Split(line, " ");
      && RequestLine(parts[0], parts[1], parts[2]).WellFormed()
      && RequestLine(parts[0], parts[1], parts[2]).ToString() == line
  {
    var parts := Split(line, " ");
    SplitCharPieces(line, ' ');
    assert ' ' !in parts[0] && ' ' !in parts[1] && ' ' !in parts[2];
    JoinSplit(line, " ");
    assert parts[1..][1..] == [parts[2]];
    assert Join(parts[1..], " ") == parts[1] + " " + parts[2];
    assert Join(parts, " ") == parts[0] + " " + Join(parts[1..], " ");
  }

  /**
   `validate_http_request`.  `valid` and `internal_error` are always opposite,
   and every rejection carries an empty resource.
   */
  function ValidateHttpRequest(request: string): (r: Validation)
    ensures r.valid != r.internalError
    ensures !r.valid ==> r == Rejected
    ensures multiset(FirstLine(request))[' '] != 2 ==> r == Rejected
  {
    var lines := Split(request, CRLF);
    if |lines| < 1 then Rejected
    else
      match ParseRequestLine(lines[0])
      case None => Rejected
      case Some(line) =>
        if line.verb != "GET" then Rejected
        else if !StartsWith(line.version, "HTTP/") then Rejected
        else Validation(true, StripLeadingSlash(line.target), false)
  }

  /** A tail that is empty or begins a new line leaves the first line alone. */
  predicate LineTail(tail: string) {
    tail == [] || StartsWith(tail, CRLF)
  }

  /**
   The first line of `line + tail` is `line` when `line` holds no CR LF; a
   lone CR or LF inside it does not end the line.
   */
  lemma FirstLineOf(line: string, tail: string)
    requires NoCrlf(line)
    requires LineTail(tail)
    ensures FirstLine(line + tail) == line
  {
    if tail == [] {
      CrlfFreeNoMatch(line, []);
      assert line + tail == line;
      SplitNoMatch(line, CRLF);
    } else {
      var rest := tail[2..];
      assert tail == CRLF + rest;
      assert line + tail == line + CRLF + rest;
      CrlfFreeNoMatch(line, rest);
      SplitFirst(line, CRLF, rest);
    }
  }

  /** Parsing a line built from three space-free tokens gives the tokens back. */
  lemma ParseRequestLineToString(rl: RequestLine)
    requires rl.WellFormed()
    ensures ParseRequestLine(rl.ToString()) == Some(rl)
  {
    var rest := rl.target + " " + rl.version;
    assert rl.ToString() == rl.verb + " " + rest;
    CharFreeNoMatch(rl.verb, ' ', rest);
    SplitFirst(rl.verb, " ", rest);
    CharFreeNoMatch(rl.target, ' ', rl.version);
    SplitFirst(rl.target, " ", rl.version);
    CharFreeNoMatch(rl.version, ' ', []);
    SplitNoMatch(rl.version, " ");
    assert Split(rl.ToString(), " ") == [rl.verb, rl.target, rl.version];
  }

  /** The empty request has an empty first line, so a non-empty first line means a non-empty request. */
  lemma EmptyFirstLine(request: string)
    ensures request == "" ==> FirstLine(request) == ""
  {
    if request == "" {
      SplitNoMatch(request, CRLF);
    }
  }

  /**
   For a request whose first line is three space-free tokens: it is accepted
   exactly when the method is `GET` and the version starts with `HTTP/`, and the
   accepted resource is the target with at most one leading `/` removed.  What
   follows the first line, and how it is laid out, plays no part.
   */
  lemma ValidateRequestLine(request: string, rl: RequestLine)
    requires rl.WellFormed() && FirstLine(request) == rl.ToString()
    ensures var r := ValidateHttpRequest(request);
      && (r.valid <==> rl.verb == "GET" && StartsWith(rl.version, "HTTP/"))
      && (r.valid && StartsWith(rl.target, "/") ==> r.resource == rl.target[1..])
      && (r.valid && !StartsWith(rl.target, "/") ==> r.resource == rl.target)
  {
    ParseRequestLineToString(rl);
  }

  /** A `GET` with an `HTTP/` version is accepted, with one `/` removed from its target. */
  lemma AcceptedGet(request: string, target: string, resource: string, version: string)
    requires FirstLine(request) == "GET " + target + " " + version && resource == StripLeadingSlash(target)
    requires ' ' !in target && ' ' !in version && StartsWith(version, "HTTP/")
    ensures ValidateHttpRequest(request) == Validation(true, resource, false)
  {
    var rl := RequestLine("GET", target, version);
    assert FirstLine(request) == rl.ToString();
    ValidateRequestLine(request, rl);
  }
}

=== FILE: wrappers.dfy ===
/** The optional-value datatype used wherever the server may produce nothing. */
module Wrappers {

  datatype Option<+T> = None | Some(value: T)
}
